=== FILE: README.md ===
# dedooper in Dafny

A model of the decision logic of `dedoop.py`, a tool that finds files of a
*cleanup* tree that duplicate files of a *source* tree and replaces them by
symbolic links to the source copies. The model covers:

- `CacheItem`: a path with lazily filled size, mtime and checksum, its
  staleness rule `verify`, the stat and checksum accessors, and the
  encoder that writes only the stored fields (`cache_item.dfy`,
  `persistence.dfy`).
- `hashwalk`: the cache-maintenance rule applied to every entry of a tree
  walk (`hashwalk.dfy`).
- `get_tree_filesizes`: the size index of the source tree, with the size
  threshold and the optional report of duplicates inside the source tree
  (`size_index.dfy`).
- `cleanup_tree`: the cross-tree matching rule and the link events it
  produces (`cleanup.dfy`).
- The three link strategies, the prompt's "answer starts with n" rule and
  the strategy selection in `main` (`link_actions.dfy`).
- `load_cache` and `write_cache` on the persisted form, a list of
  `[abspath, mtime, size, checksum]` rows (`persistence.dfy`).
- The order of steps in `main` after argument parsing (`pipeline.dfy`).

The filesystem is a set of oracles (`FileSystem.Fs`): existence, directory
and symbolic-link tests, `realpath`, `stat` (integer size, real mtime),
a content digest standing for SHA-1 of the file, the walk of a tree as a
sequence of file paths in traversal order, and writability of a directory.
The filesystem does not change during a run; link actions are recorded as
events. So every `realpath` the model compares is the one from before the
run: a link made early in a run is not seen by later matches (see
`Pipeline.Run` under "## Left out").

Python object sharing matters here: the same `CacheItem` object is in the
cache dict, is yielded by `hashwalk` and is appended to a size bucket, so
filling a lazy field through one of them is seen through all of them. The
model keeps every record in a store (`CacheStore.Store`, a sequence of
records addressed by index plus the cache map from path to index), and the
size buckets hold indices. `hashwalk` is a generator interleaved with its
consumer; the model has one walk step per entry (`HashWalk.WalkStep`) that
each consumer runs before its own work on the yielded record.

Two behaviours of the code worth noting:

- `--show_source_dupes` defaults to off in `main` (dedoop.py:290), while
  `get_tree_filesizes` on its own defaults it to on and `min_filesize` to
  1 GiB (dedoop.py:145, as its docstring at dedoop.py:152-153 says). The
  model follows `main`: `SizeIndex.GetTreeFilesizes` takes both as
  arguments, and `LinkActions.Defaults` holds `main`'s defaults.
- Every file of the cleanup tree gets a cache entry, small files included,
  because `hashwalk` caches each file it visits before the size test
  (dedoop.py:138). `Cleanup.CleanupTreeContract` states this.

## Model

| member | source | states |
|---|---|---|
| CacheItems.VerifyIsStatFixpoint | dedoop.py:74-83 | `verify` is false when size or mtime is unknown; otherwise it holds exactly when a fresh stat (size, mtime truncated to an integer) would leave both fields as they are |
| CacheItems.VerifyIgnoresChecksum | dedoop.py:74-83 | whatever checksum a record holds, `verify` gives the same answer |
| CacheItems.RestatFillsBoth | dedoop.py:68-72 | one `_stat` fills size and mtime together, keeps path and checksum, and the record then verifies |
| FileSystem.Trunc | dedoop.py:72 | `int()` of the stat mtime rounds toward zero: same sign, never larger in magnitude, within one of the real value |
| CacheItems.Size | dedoop.py:85-90 | the `size` property returns a stored size without statting; otherwise it stats once and the record then holds that size |
| CacheItems.Mtime | dedoop.py:92-97 | the `mtime` property returns a stored mtime unchanged; otherwise it stats and returns the truncated stat mtime |
| CacheItems.StatAccessorsMemoise | dedoop.py:85-97 | a second `size` or `mtime` read reports the same value and changes nothing |
| CacheItems.Checksum | dedoop.py:52-66 | a truthy stored checksum is returned untouched; otherwise the file's digest is computed, stored and returned |
| CacheItems.ChecksumMemoises | dedoop.py:52-66 | a second checksum read reports the same digest and leaves the record as the first read left it |
| CacheItems.StaleChecksumIsReturned | dedoop.py:52-54 | a stored checksum is returned even when `verify` fails for the record |
| CacheItems.AccessorsRefine | dedoop.py:52-90 | the size and checksum accessors only fill lazy fields: path, a known size and mtime, a known mtime's presence, a truthy checksum, a stored checksum's presence and the values these accessors report stay the same, and a verified record stays verified (the `mtime` accessor is not covered: with no stored mtime it re-stats and may replace a stored size, as `CacheItems.Mtime` states) |
| HashWalk.CheckRoot | dedoop.py:117-120 | the root is accepted exactly when it exists and is a directory; a missing root is reported as missing, any other refusal as not a directory |
| HashWalk.Walk | dedoop.py:108-141 | `BadRoot` is raised exactly when the root check fails, before any entry is looked at, so the cache is left as it was |
| HashWalk.WalkStep | dedoop.py:124-139 | a symbolic link yields nothing and loses its cache entry; a file yields the cached record on a verified hit, otherwise a new path-only record stored at its path; the yielded record is `cache[path]`; other keys are untouched |
| HashWalk.WalkEntries | dedoop.py:123-139 | the yielded records are the non-link files of the walk in walk order; records created by the walk hold only their path; the cache invariant key == path is kept |
| HashWalk.WalkEntriesCacheRule | dedoop.py:123-139 | after a walk: unvisited paths keep their entry, visited links have none, visited files have one, which is the old record when it verified and a new record otherwise |
| HashWalk.WalkYieldsCacheEntries | dedoop.py:133-139 | for a walk that lists each path once, every yielded record is still the cache entry for its path when the walk ends |
| HashWalk.WalkKeepsUnvisited | dedoop.py:123-139 | the cache entry of a path the walk never visits is not touched |
| SizeIndex.ReportDupes | dedoop.py:166-175 | with `show_source_dupes`, the reported pairs are exactly the earlier bucket records whose checksum equals the new record's, in bucket order; only checksums are filled in, a truthy stored checksum is never changed and a stored one never dropped |
| SizeIndex.Consume | dedoop.py:160-176 | a record below the threshold is skipped with no checksum computed; otherwise it is appended to the bucket of its size and `num_items` grows by one |
| SizeIndex.GetTreeFilesizes | dedoop.py:144-179 | `BadRoot` exactly when the root check fails; otherwise every bucket key is at or above the threshold and every record in bucket `k` has size `k` |
| SizeIndex.GetTreeFilesizesContract | dedoop.py:157-179 | bucket `k` holds exactly the non-link files of size `k` in walk order and exists only for sizes at or above the threshold; `num_items` equals the number of such files and the total of the bucket lengths; no checksum is computed for unbucketed files, nor for any file without `show_source_dupes`; the walk's cache rule holds |
| SizeIndex.IndexBuckets | dedoop.py:160-176 | the scan only appends to buckets, in walk order, the files of each size at or above the threshold |
| SizeIndex.IndexCount | dedoop.py:159-165 | the scan adds to `num_items` and to the total bucket length the number of files at or above the threshold |
| SizeIndex.IndexChecksums | dedoop.py:160-176 | checksums are only ever filled in for bucketed records, and only with `show_source_dupes` |
| SizeIndex.IndexNoDupesWithoutShow | dedoop.py:166 | without `show_source_dupes` no collision is reported |
| Cleanup.FirstMatch | dedoop.py:209-218 | reference definition of the match: the first bucket position whose record has the same checksum and a different `realpath`, with every earlier position not matching |
| Cleanup.MatchLoop | dedoop.py:209-218 | the inner loop reads checksums (other first), skips same-file matches and stops at the first real match; its result is the first match, and only checksums are filled in, a truthy stored checksum is never changed and a stored one never dropped |
| Cleanup.MatchLoopTouches | dedoop.py:209-211 | the matching loop computes no checksum for records outside the cleanup record and its bucket |
| Cleanup.CleanupStepEffect | dedoop.py:205-218 | a symbolic link makes no link; a file whose size has no bucket makes no link and has no checksum computed anywhere; otherwise there is at most one link, to the first match in its bucket, and the counter grows with it |
| Cleanup.CleanupTree | dedoop.py:201-220 | `BadRoot` exactly when the cleanup root check fails; otherwise the store only has lazy fields filled: no record is removed, paths, known sizes and truthy checksums keep their values, stored mtimes and checksums stay stored, and the size and checksum the accessors report stay the same |
| Cleanup.CleanupKeepsChecksums | dedoop.py:201-220 | a truthy checksum stored before the cleanup scan is still stored, unchanged, after it, so the second save persists it |
| CacheStore.EvolvesKeepsStored | dedoop.py:52-97 | as records only have lazy fields filled, a stored size and a truthy checksum keep their values and a stored mtime or checksum is never dropped |
| Cleanup.CleanupTreeContract | dedoop.py:201-220 | `num_deduped` equals the number of callbacks; no callback joins a file to itself; every source is a record of the source index; the targets are files of the walk in walk order, each at most once when the walk lists each path once; the walk's cache rule holds |
| Cleanup.CleanupLinkFacts | dedoop.py:212-216 | each callback's target is a non-link file of the cleanup walk and its source resolves to a different file |
| LinkActions.SelectStrategy | dedoop.py:359-364 | printing exactly under dry run; prompting exactly when dry run is off and prompting on; direct linking exactly when both are off |
| LinkActions.DefaultsOnlyPrint | dedoop.py:290-325 | the default flags select printing, do not show source duplicates, and set the threshold to 300 MiB |
| LinkActions.DeclinesFirstLetter | dedoop.py:194-195 | an answer declines exactly when it starts with `n` or `N` |
| LinkActions.DeclinesExamples | dedoop.py:192-198 | an empty answer, `y`, `Yes` and `x` make the link; `n`, `No` and `nope` do not |
| LinkActions.Act | dedoop.py:182-198 | printing never links; direct linking always links; prompting links exactly when the answer does not decline |
| LinkActions.StrategyOutcomes | dedoop.py:182-198 | over a run: dry run makes no link, no-prompt mode makes every requested link, prompting makes exactly the links whose answers do not decline |
| LinkActions.MadeNeverSelfLinks | dedoop.py:182-198 | whatever the strategy, a link made is one the scan requested, so it never joins a file to itself |
| Persistence.Encode | dedoop.py:100-105 | the encoder writes the stored fields only, so decoding its row gives back the identical record, absent checksum included |
| Persistence.Rows | dedoop.py:255-259 | the rows of `write_cache` in key order, one per key, each the encoding of that key's record; the first key whose record has another path stops it with that key |
| Persistence.WriteCache | dedoop.py:248-261 | a cache whose keys are their records' paths is always written in full, one row per key; a failure names a key of a cache breaking that invariant |
| Persistence.LoadRows | dedoop.py:233-240 | loading keeps the key == path invariant and record `i` comes from line `i` |
| Persistence.LoadLastWins | dedoop.py:233-240 | the loaded cache has a key for exactly the paths of the file, and each key's record is decoded from the last line with that path |
| Persistence.RoundTrip | dedoop.py:100-105 | writing a valid cache in any iteration order and loading the rows gives the same keys with identical records, fields never computed staying absent (as dedoop_test.py:16-29 checks) |
| Persistence.DirnameEmpty | dedoop.py:242 | `os.path.dirname` is empty exactly for a path without `/` |
| Persistence.DirnameOfJoin | dedoop.py:242 | the directory part of `dir/name` is `dir` |
| Persistence.LoadCacheAsWritten | dedoop.py:231-244 | as written: an existing file is loaded; a missing one gives `CannotCreateCacheFile` exactly when its path has no `/` or its directory part is not writable, and an empty cache otherwise |
| Persistence.RelativeCachePathRefused | dedoop.py:241-242 | concretely: `dedooper.cache` absent, current directory writable: the code as written refuses, the corrected load returns an empty cache |
| Persistence.LoadCache | dedoop.py:231-244 | an existing file is loaded; a missing one gives `CannotCreateCacheFile` exactly when the directory it would be created in is not writable, and an empty cache otherwise |
| Persistence.LoadCacheAgrees | dedoop.py:241-242 | for a cache path with a directory part the corrected load and the load as written agree |
| Persistence.UnsavableCacheExisted | dedoop.py:231-260 | a cache that was loaded but whose directory is not writable for `write_cache`'s temporary file and rename came from an existing cache file |
| Pipeline.Run | dedoop.py:334-377 | `main` with `load_cache` as written: every cache saved satisfies key == path; a run without error saves the cache twice; callbacks happen only in a run without error; when the cache directory is not writable nothing is saved, no callback happens and the run ends in error |
| Pipeline.RunStopsEarly | dedoop.py:334-357 | identical roots or a cache refused by `load_cache` as written (always so for a missing file named without a directory part) stop the run before any scan or save; an existing cache file in an unwritable directory is loaded but the first save fails, ending the run with `CannotWriteCacheFile` before the cleanup scan; a bad source root with a savable cache stops the run after saving the cache exactly as it was loaded |
| Pipeline.RunCorrected | dedoop.py:334-377 | `main` with the corrected `load_cache`: the same save, save-failure and callback guarantees as `Pipeline.Run` |
| Pipeline.RunCorrectedAgrees | dedoop.py:241-242 | with a directory part in the cache path the corrected run and the run as written are identical |
| Pipeline.RunBareCacheName | dedoop.py:339-344 | a missing `dedooper.cache` in a writable working directory: the run as written exits with `CannotCreateCacheFile` before any scan or save; the corrected run does not, and saves at least once |
| Pipeline.RunWritesSucceed | dedoop.py:355-356 | every save of a run passes `write_cache`'s key check, in any iteration order |
| Pipeline.RunDefaultsNeverLink | dedoop.py:290-364 | with the default flags no file is replaced by a link |
| Pipeline.RunNeverSelfLinks | dedoop.py:359-377 | whatever the flags and answers, a link made replaces a non-link file of the cleanup walk by a link to a file that, on the filesystem as it was before the run, is a different one |

## Left out

- The SHA-1 digest and the reading of file content (dedoop.py:57-65): the
  checksum is the oracle `contentHash(path)`. The text-mode read with a
  UTF-8 re-encode is not modelled.
- `os.walk`'s traversal order, `os.stat`, `os.path.realpath`,
  `os.path.islink`, `os.path.exists`, `os.path.isdir` and `os.access` are
  oracles; a stat that fails (a file vanishing mid-run) is not modelled.
- `os.path.join` of walk directory and file name: the walk yields full paths.
  `os.path.abspath` of the roots in `main` is not modelled; roots are taken
  as absolute.
- JSON text: the cache file is modelled as its list of rows; malformed
  lines, which make `json.loads` raise, are not modelled.
- The contents of the temporary file and the `os.rename` in `write_cache`
  (dedoop.py:255-260). A failing key check in the source leaves a
  partial temporary file and the old cache file in place; the model only
  reports the failing key.
- Persistence.CanSave: whether a save succeeds is decided by the
  writability of the cache file's directory alone, which both the
  creation of `cache_path + ".tmp"` and the rename need. A save that fails
  for another reason (an existing read-only `.tmp` file in a writable
  directory, a full disk) is not modelled.
- Python 2 dict iteration order: `write_cache` takes the order as a
  parameter, and the round trip holds for every order.
- Printing, `pipes.quote`, `raw_input`, `os.unlink`/`os.symlink` and
  logging: callbacks are recorded as effects; links made are not fed back
  into the filesystem oracle.
- `str.lower()` is modelled for ASCII letters only.
- `argparse` and `~` expansion of the default cache path: `main` is
  modelled from parsed options on.
- `hashwalk` with `cache=None` (dedoop.py:140-141): every caller passes a
  cache, and that branch would fail at dedoop.py:127 on a symbolic link.
- `sys.exit(1)` and the messages logged with it: a run's end is its
  `exit` error value.
- Pipeline.Run: links made during a run are not fed back into `realpath`,
  so its link decisions match the program only in dry run or when no
  earlier link changes a later `realpath`, for example when neither root
  lies inside the other. With the source tree inside the cleanup tree and
  two identical source files `a`, `b` in one bucket, the model links `a`
  to `b` and then `b` to `a`; the program, re-resolving `a` at
  dedoop.py:212 after the first link, sees the same file and skips the
  second. `Pipeline.RunNeverSelfLinks` and `Cleanup.CleanupTreeContract`
  judge "a different file" against the filesystem before the run.
- HashWalk.WalkStep: all paths are one kind of string. Under Python 2,
  `json.loads` gives `unicode` paths while `os.walk` of a byte-string root
  gives byte strings; for a non-ASCII path the two are different dict
  keys, so a reloaded entry never hits the cache and a symbolic link does
  not evict it. `Persistence.LoadRows` shares this simplification. The
  model's hit and eviction rules hold for ASCII paths only.

## Findings

| source | as written | input that shows it | evidently intended | confidence | as-written member | corrected member |
|---|---|---|---|---|---|---|
| dedoop.py:241-242 | a missing cache file is refused unless `os.access(os.path.dirname(cache_path), os.W_OK)`; for a path without a directory part `dirname` is `''` and `os.access('')` is always false | `--cache_file dedooper.cache` in a writable working directory where that file does not exist yet | check the directory the file would be created in, the current directory for a bare file name | medium, not executed | Persistence.LoadCacheAsWritten, Pipeline.Run, Pipeline.RunBareCacheName | Persistence.LoadCache, Pipeline.RunCorrected |

=== FILE: cache_item.dfy ===
/** One file's cached metadata (`CacheItem` in dedoop.py): a path plus three
    lazily filled fields. The record is immutable here; every accessor returns
    the value it reports together with the record as it is afterwards. */
module CacheItems {
  import opened Wrappers
  import opened FileSystem

  datatype CacheItem = CacheItem(
    abspath: string,
    mtime: Option<int>,
    size: Option<int>,
    checksum: Option<string>
  )

  /** `CacheItem(abspath)`: a record that knows only its path. */
  function Bare(abspath: string): CacheItem
  {
    CacheItem(abspath, None, None, None)
  }

  /** Python truthiness of `_checksum`: `None` and the empty string are both
      "no checksum stored". */
  predicate HasChecksum(item: CacheItem)
  {
    item.checksum.Some? && item.checksum.value != ""
  }

  /** `_stat`: one stat call fills size and the truncated mtime together. */
  function Restat(fs: Fs, item: CacheItem): CacheItem
  {
    var st := fs.stat(item.abspath);
    item.(size := Some(st.size), mtime := Some(Trunc(st.mtime)))
  }

  /** `verify`: the cheap staleness rule. */
  predicate Verify(fs: Fs, item: CacheItem)
  {
    match (item.size, item.mtime)
    case (Some(size), Some(mtime)) =>
      var st := fs.stat(item.abspath);
      size == st.size && mtime == Trunc(st.mtime)
    case _ => false
  }

  /** The size the `size` accessor reports for a record. */
  function SizeValue(fs: Fs, item: CacheItem): int
  {
    if item.size.Some? then item.size.value else fs.stat(item.abspath).size
  }

  /** The checksum the `checksum` accessor reports for a record: the stored
      one when it is truthy, otherwise the digest of the file's content. */
  function Digest(fs: Fs, item: CacheItem): string
  {
    if HasChecksum(item) then item.checksum.value else fs.contentHash(item.abspath)
  }

  /** The `size` property. */
  function Size(fs: Fs, item: CacheItem): (r: (int, CacheItem))
    ensures r.0 == SizeValue(fs, item)
    ensures r.1.size == Some(r.0)
    ensures item.size.Some? ==> r.1 == item
    ensures item.size.None? ==> r.1 == Restat(fs, item)
  {
    if item.size.Some? then (item.size.value, item)
    else
      var it := Restat(fs, item);
      (it.size.value, it)
  }

  /** The `mtime` property. */
  function Mtime(fs: Fs, item: CacheItem): (r: (int, CacheItem))
    ensures r.1.mtime == Some(r.0)
    ensures item.mtime.Some? ==> r == (item.mtime.value, item)
    ensures item.mtime.None? ==> r.1 == Restat(fs, item) && r.0 == Trunc(fs.stat(item.abspath).mtime)
  {
    if item.mtime.Some? then (item.mtime.value, item)
    else
      var it := Restat(fs, item);
      (it.mtime.value, it)
  }

  /** The `checksum` property: a stored truthy checksum is returned without
      reading the file, whatever `Verify` would say; otherwise the digest is
      computed and stored. */
  function Checksum(fs: Fs, item: CacheItem): (r: (string, CacheItem))
    ensures r.0 == Digest(fs, item)
    ensures HasChecksum(item) ==> r.1 == item
    ensures !HasChecksum(item) ==> r.1 == item.(checksum := Some(fs.contentHash(item.abspath)))
  {
    if HasChecksum(item) then (item.checksum.value, item)
    else
      var h := fs.contentHash(item.abspath);
      (h, item.(checksum := Some(h)))
  }

  /** `verify` holds exactly when a fresh stat would leave the record as it
      is: both stat fields known and equal to what the stat reports. */
  lemma VerifyIsStatFixpoint(fs: Fs, item: CacheItem)
    ensures Verify(fs, item) <==> Restat(fs, item) == item
    ensures item.size.None? || item.mtime.None? ==> !Verify(fs, item)
  {
  }

  /** `verify` never looks at the checksum. */
  lemma VerifyIgnoresChecksum(fs: Fs, item: CacheItem, c: Option<string>)
    ensures Verify(fs, item.(checksum := c)) == Verify(fs, item)
  {
  }

  /** A single stat sets both fields, and the record then verifies. */
  lemma RestatFillsBoth(fs: Fs, item: CacheItem)
    ensures Restat(fs, item).size.Some? && Restat(fs, item).mtime.Some?
    ensures Restat(fs, item).abspath == item.abspath && Restat(fs, item).checksum == item.checksum
    ensures Verify(fs, Restat(fs, item))
  {
  }

  /** The size and mtime accessors memoise: a second call reports the same
      value and changes nothing. */
  lemma StatAccessorsMemoise(fs: Fs, item: CacheItem)
    ensures Size(fs, Size(fs, item).1) == Size(fs, item)
    ensures Mtime(fs, Mtime(fs, item).1) == Mtime(fs, item)
  {
  }

  /** The checksum accessor computes at most once: a second call reports
      the same digest and leaves the record as the first call left it. */
  lemma ChecksumMemoises(fs: Fs, item: CacheItem)
    ensures Checksum(fs, Checksum(fs, item).1) == Checksum(fs, item)
  {
  }

  /** A stale stored checksum is still what the accessor reports. */
  lemma StaleChecksumIsReturned(fs: Fs, item: CacheItem)
    requires HasChecksum(item) && !Verify(fs, item)
    ensures Checksum(fs, item) == (item.checksum.value, item)
  {
  }

  /** How a record may change while dedoop runs: only by filling lazy fields.
      The path stays; a known size (and the mtime read with it) stays; a
      known mtime stays known (a re-stat may refresh it while the size is
      unknown); a truthy checksum stays as it is and a stored falsy one is
      at most replaced; and the values the size and checksum accessors
      report stay. */
  predicate Refines(fs: Fs, a: CacheItem, b: CacheItem)
  {
    && b.abspath == a.abspath
    && (a.size.Some? ==> b.size == a.size && b.mtime == a.mtime)
    && (a.mtime.Some? ==> b.mtime.Some?)
    && (a.checksum.Some? ==> b.checksum.Some?)
    && (HasChecksum(a) ==> b.checksum == a.checksum)
    && SizeValue(fs, b) == SizeValue(fs, a)
    && Digest(fs, b) == Digest(fs, a)
  }

  /** The accessors only refine a record, and a verified record stays verified. */
  lemma AccessorsRefine(fs: Fs, item: CacheItem)
    ensures Refines(fs, item, Size(fs, item).1)
    ensures Refines(fs, item, Checksum(fs, item).1)
    ensures Verify(fs, item) ==> Verify(fs, Size(fs, item).1) && Verify(fs, Checksum(fs, item).1)
  {
  }
}

=== FILE: cleanup.dfy ===
/** `cleanup_tree`: scan the cleanup tree and, for each file whose size has a
    bucket in the source index, link it to the first source record with the
    same checksum that is not already the same file. The link callback is
    recorded as a `Link` event. */
module Cleanup {
  import opened Wrappers
  import opened FileSystem
  import opened Errors
  import opened CacheItems
  import opened CacheStore
  import opened HashWalk
  import opened SizeIndex

  /** One callback invocation: `callback(other.abspath, cacheitem.abspath)`. */
  datatype Link = Link(source: string, target: string)

  predicate BucketsIn(sizes: Buckets, n: nat)
  {
    forall k :: k in sizes ==> AllIn(sizes[k], n)
  }

  /** Source record `o` is a match for cleanup record `item`: the checksums
      the accessor reports agree and the two paths are not the same file. */
  predicate IsMatch(fs: Fs, heap: seq<CacheItem>, item: Ref, o: Ref)
    requires item < |heap| && o < |heap|
  {
    && Digest(fs, heap[o]) == Digest(fs, heap[item])
    && fs.realpath(heap[o].abspath) != fs.realpath(heap[item].abspath)
  }

  /** Reference definition of the first-match policy: the position of the
      first match in bucket order. */
  function FirstMatch(fs: Fs, heap: seq<CacheItem>, item: Ref, bucket: seq<Ref>): (i: Option<nat>)
    requires item < |heap| && AllIn(bucket, |heap|)
    ensures i.Some? ==> i.value < |bucket| && IsMatch(fs, heap, item, bucket[i.value])
    ensures i.Some? ==> forall j :: 0 <= j < i.value ==> !IsMatch(fs, heap, item, bucket[j])
    ensures i.None? ==> forall j :: 0 <= j < |bucket| ==> !IsMatch(fs, heap, item, bucket[j])
  {
    if bucket == [] then None
    else if IsMatch(fs, heap, item, bucket[0]) then Some(0)
    else Later(FirstMatch(fs, heap, item, bucket[1..]))
  }

  /** A position in the tail of a bucket, as a position in the bucket. */
  function Later(i: Option<nat>): (j: Option<nat>)
    ensures j.Some? <==> i.Some?
    ensures j.Some? ==> j.value == i.value + 1
  {
    if i.Some? then Some(i.value + 1) else None
  }

  lemma {:induction false} FirstMatchEvolves(fs: Fs, h0: seq<CacheItem>, h1: seq<CacheItem>, item: Ref, bucket: seq<Ref>)
    requires item < |h0| && AllIn(bucket, |h0|) && Evolves(fs, h0, h1)
    ensures FirstMatch(fs, h1, item, bucket) == FirstMatch(fs, h0, item, bucket)
    decreases |bucket|
  {
    if bucket != [] {
      assert Refines(fs, h0[item], h1[item]) && Refines(fs, h0[bucket[0]], h1[bucket[0]]);
      FirstMatchEvolves(fs, h0, h1, item, bucket[1..]);
    }
  }

  /** The inner `for other in sizes[...]` loop: checksums are read through
      the accessor (`other` first), a same-file match is logged and the
      search goes on, the first real match ends it. Returns the position of
      the record linked to, if any. */
  function MatchLoop(fs: Fs, s: Store, item: Ref, bucket: seq<Ref>): (res: (Option<nat>, Store))
    requires Valid(s) && item < |s.heap| && AllIn(bucket, |s.heap|)
    ensures Valid(res.1) && res.1.cache == s.cache
    ensures Evolves(fs, s.heap, res.1.heap) && OnlyChecksums(s.heap, res.1.heap)
    ensures res.0 == FirstMatch(fs, s.heap, item, bucket)
    decreases |bucket|
  {
    if bucket == [] then (None, s)
    else
      var (theirs, mine, s2) := ChecksumPair(fs, s, bucket[0], item);
      var other, cleanup := s2.heap[bucket[0]], s2.heap[item];
      assert other.abspath == s.heap[bucket[0]].abspath && cleanup.abspath == s.heap[item].abspath;
      if theirs == mine && fs.realpath(other.abspath) != fs.realpath(cleanup.abspath) then
        assert IsMatch(fs, s.heap, item, bucket[0]);
        (Some(0), s2)
      else
        assert !IsMatch(fs, s.heap, item, bucket[0]);
        var (i, s3) := MatchLoop(fs, s2, item, bucket[1..]);
        EvolvesTransitive(fs, s.heap, s2.heap, s3.heap);
        OnlyChecksumsTransitive(s.heap, s2.heap, s3.heap);
        FirstMatchEvolves(fs, s.heap, s2.heap, item, bucket[1..]);
        (Later(i), s3)
  }

  /** The matching loop computes checksums only for the cleanup record and
      the records of its bucket. */
  lemma {:induction false} MatchLoopTouches(fs: Fs, s: Store, item: Ref, bucket: seq<Ref>, x: Ref)
    requires Valid(s) && item < |s.heap| && AllIn(bucket, |s.heap|)
    requires x < |s.heap| && x != item && x !in bucket
    ensures MatchLoop(fs, s, item, bucket).1.heap[x] == s.heap[x]
    decreases |bucket|
  {
    if bucket != [] {
      var (theirs, mine, s2) := ChecksumPair(fs, s, bucket[0], item);
      MatchLoopTouches(fs, s2, item, bucket[1..], x);
    }
  }

  /** The state threaded through the scan: the store, the links made so
      far and the `num_deduped` counter. */
  datatype CleanupState = CleanupState(store: Store, links: seq<Link>, numDeduped: nat)

  /** What the loop body does with a yielded record. */
  function Consume(fs: Fs, sizes: Buckets, st: CleanupState, item: Ref): (st': CleanupState)
    requires Valid(st.store) && BucketsIn(sizes, |st.store.heap|) && item < |st.store.heap|
    ensures Valid(st'.store) && st'.store.cache == st.store.cache
    ensures Evolves(fs, st.store.heap, st'.store.heap) && |st'.store.heap| == |st.store.heap|
    ensures StatKeptExcept(st.store.heap, st'.store.heap, st.store.heap[item].abspath)
    ensures SizeValue(fs, st.store.heap[item]) !in sizes ==>
      && st'.links == st.links && st'.numDeduped == st.numDeduped
      && forall x :: 0 <= x < |st.store.heap| ==> st'.store.heap[x].checksum == st.store.heap[x].checksum
    ensures var sz := SizeValue(fs, st.store.heap[item]);
      sz in sizes ==>
        match FirstMatch(fs, st'.store.heap, item, sizes[sz])
        case None => st'.links == st.links && st'.numDeduped == st.numDeduped
        case Some(i) =>
          && st'.links == st.links + [Link(st'.store.heap[sizes[sz][i]].abspath, st.store.heap[item].abspath)]
          && st'.numDeduped == st.numDeduped + 1
  {
    var (sz, s1) := SizeAt(fs, st.store, item);
    if sz !in sizes then st.(store := s1)
    else
      var bucket := sizes[sz];
      var (m, s2) := MatchLoop(fs, s1, item, bucket);
      EvolvesTransitive(fs, st.store.heap, s1.heap, s2.heap);
      FirstMatchEvolves(fs, s1.heap, s2.heap, item, bucket);
      match m
      case None => st.(store := s2)
      case Some(i) =>
        CleanupState(s2, st.links + [Link(s2.heap[bucket[i]].abspath, s2.heap[item].abspath)], st.numDeduped + 1)
  }

  /** One iteration of the cleanup loop: the walk step, then the consumer. */
  function CleanupStep(fs: Fs, sizes: Buckets, st: CleanupState, path: string): (st': CleanupState)
    requires Valid(st.store) && BucketsIn(sizes, |st.store.heap|)
    ensures Valid(st'.store) && BucketsIn(sizes, |st'.store.heap|)
    ensures Evolves(fs, st.store.heap, st'.store.heap)
  {
    var (y, s1) := WalkStep(fs, st.store, path);
    EvolvesReflexive(fs, st.store.heap);
    if y.None? then st.(store := s1)
    else
      var st' := Consume(fs, sizes, st.(store := s1), y.value);
      EvolvesTransitive(fs, st.store.heap, s1.heap, st'.store.heap);
      st'
  }

  /** The cleanup loop over a walk. */
  function CleanupEntries(fs: Fs, sizes: Buckets, st: CleanupState, entries: seq<string>): (st': CleanupState)
    requires Valid(st.store) && BucketsIn(sizes, |st.store.heap|)
    ensures Valid(st'.store) && BucketsIn(sizes, |st'.store.heap|)
    ensures Evolves(fs, st.store.heap, st'.store.heap)
    decreases |entries|
  {
    if entries == [] then
      EvolvesReflexive(fs, st.store.heap);
      st
    else
      var st1 := CleanupStep(fs, sizes, st, entries[0]);
      var st2 := CleanupEntries(fs, sizes, st1, entries[1..]);
      EvolvesTransitive(fs, st.store.heap, st1.store.heap, st2.store.heap);
      st2
  }

  /** `cleanup_tree(root, sizes, cache, callback)`: `BadRoot` before anything
      else, otherwise the finished scan from no links and a zero counter. */
  function CleanupTree(fs: Fs, root: string, sizes: Buckets, s: Store): (res: Result<CleanupState, Error>)
    requires Valid(s) && BucketsIn(sizes, |s.heap|)
    ensures res.Failure? <==> CheckRoot(fs, root).Some?
    ensures res.Failure? ==> res.error == CheckRoot(fs, root).value
    ensures res.Success? ==> Valid(res.value.store) && Evolves(fs, s.heap, res.value.store.heap)
  {
    match CheckRoot(fs, root)
    case Some(e) => Failure(e)
    case None => Success(CleanupEntries(fs, sizes, CleanupState(s, [], 0), fs.walk(root)))
  }

  /** A truthy checksum stored before the cleanup scan is still stored after
      it, so the second save persists it and the next run does not hash the
      file again. */
  lemma CleanupKeepsChecksums(fs: Fs, root: string, sizes: Buckets, s: Store, r: nat)
    requires Valid(s) && BucketsIn(sizes, |s.heap|)
    requires r < |s.heap| && HasChecksum(s.heap[r])
    requires CleanupTree(fs, root, sizes, s).Success?
    ensures CleanupTree(fs, root, sizes, s).value.store.heap[r].checksum == s.heap[r].checksum
  {
    EvolvesKeepsStored(fs, s.heap, CleanupTree(fs, root, sizes, s).value.store.heap, r);
  }

  /** What one loop iteration does: nothing for a symbolic link; for a file
      whose size has no bucket, no link and no checksum computed anywhere;
      otherwise at most one link, to the first match in its bucket. */
  lemma CleanupStepEffect(fs: Fs, sizes: Buckets, st: CleanupState, path: string)
    requires Valid(st.store) && BucketsIn(sizes, |st.store.heap|)
    ensures var st' := CleanupStep(fs, sizes, st, path);
      var sz := fs.stat(path).size;
      && (fs.isLink(path) ==> st'.links == st.links && st'.numDeduped == st.numDeduped)
      && (!fs.isLink(path) && sz !in sizes ==>
            && st'.links == st.links && st'.numDeduped == st.numDeduped
            && forall x :: 0 <= x < |st'.store.heap| ==> ChecksumKept(st.store.heap, st'.store.heap, x))
      && (!fs.isLink(path) && sz in sizes ==>
            var r := WalkStep(fs, st.store, path).0.value;
            && r < |st'.store.heap| && st'.store.heap[r].abspath == path
            && match FirstMatch(fs, st'.store.heap, r, sizes[sz])
               case None => st'.links == st.links && st'.numDeduped == st.numDeduped
               case Some(i) =>
                 && st'.links == st.links + [Link(st'.store.heap[sizes[sz][i]].abspath, path)]
                 && st'.numDeduped == st.numDeduped + 1)
  {
    var (y, s1) := WalkStep(fs, st.store, path);
    var st' := CleanupStep(fs, sizes, st, path);
    if y.Some? {
      var r := y.value;
      assert st' == Consume(fs, sizes, st.(store := s1), r);
      assert Refines(fs, s1.heap[r], st'.store.heap[r]) by {
        EvolvesReflexive(fs, s1.heap);
      }
      if fs.stat(path).size !in sizes {
        forall x | 0 <= x < |st'.store.heap| ensures ChecksumKept(st.store.heap, st'.store.heap, x) {
          if x >= |st.store.heap| {
            assert s1.heap[x] == Bare(path);
          }
        }
      }
    }
  }

  function Targets(links: seq<Link>): (ts: seq<string>)
    ensures |ts| == |links| && forall i :: 0 <= i < |links| ==> ts[i] == links[i].target
  {
    if links == [] then [] else [links[0].target] + Targets(links[1..])
  }

  /** `a` is `b` with some elements left out, the rest in order. */
  predicate Subsequence<T(==)>(a: seq<T>, b: seq<T>)
    decreases |b|
  {
    if a == [] then true
    else if b == [] then false
    else (a[0] == b[0] && Subsequence(a[1..], b[1..])) || Subsequence(a, b[1..])
  }

  /** A subsequence of a sequence without repetitions has none either. */
  lemma {:induction false} SubsequenceIn<T>(a: seq<T>, b: seq<T>)
    requires Subsequence(a, b)
    ensures forall x :: x in a ==> x in b
    decreases |b|
  {
    if a != [] {
      if a[0] == b[0] && Subsequence(a[1..], b[1..]) {
        SubsequenceIn(a[1..], b[1..]);
        forall x | x in a ensures x in b {
          if x != a[0] {
            assert x in a[1..];
          }
        }
      } else {
        SubsequenceIn(a, b[1..]);
      }
    }
  }

  lemma {:induction false} SubsequenceDistinct<T>(a: seq<T>, b: seq<T>)
    requires Subsequence(a, b) && Distinct(b)
    ensures Distinct(a)
    decreases |b|
  {
    if a != [] {
      assert b != [];
      DistinctTail(b);
      if a[0] == b[0] && Subsequence(a[1..], b[1..]) {
        SubsequenceDistinct(a[1..], b[1..]);
        SubsequenceIn(a[1..], b[1..]);
        forall i, j | 0 <= i < j < |a| ensures a[i] != a[j] {
          if i == 0 {
            assert a[j] == a[1..][j - 1];
            assert a[j] in b[1..];
          } else {
            assert a[i] == a[1..][i - 1] && a[j] == a[1..][j - 1];
          }
        }
      } else {
        SubsequenceDistinct(a, b[1..]);
      }
    }
  }


  /** The path `p` is the path of a record in some bucket of the index. */
  ghost predicate InIndex(heap: seq<CacheItem>, sizes: Buckets, p: string)
  {
    exists k, j :: k in sizes && 0 <= j < |sizes[k]| && sizes[k][j] < |heap| && heap[sizes[k][j]].abspath == p
  }

  /** The links made by a scan, as a predicate on the links added after
      position `from`. */
  ghost predicate LinksOk(fs: Fs, heap: seq<CacheItem>, sizes: Buckets, links: seq<Link>, from: nat, entries: seq<string>)
    requires from <= |links|
  {
    && SelfFreeFrom(fs, links, from)
    && IndexedFrom(heap, sizes, links, from)
    && Subsequence(Targets(links[from..]), Files(fs, entries))
  }

  lemma InIndexEvolves(fs: Fs, h0: seq<CacheItem>, h1: seq<CacheItem>, sizes: Buckets, p: string)
    requires Evolves(fs, h0, h1) && InIndex(h0, sizes, p)
    ensures InIndex(h1, sizes, p)
  {
    var k, j :| k in sizes && 0 <= j < |sizes[k]| && sizes[k][j] < |h0| && h0[sizes[k][j]].abspath == p;
    assert Refines(fs, h0[sizes[k][j]], h1[sizes[k][j]]);
  }

  /** The links of one iteration: none, or one to a different file of the
      index whose target is the entry itself. */
  lemma CleanupStepLinks(fs: Fs, sizes: Buckets, st: CleanupState, path: string)
    requires Valid(st.store) && BucketsIn(sizes, |st.store.heap|)
    ensures var st' := CleanupStep(fs, sizes, st, path);
      && st.links <= st'.links && |st'.links| <= |st.links| + 1
      && st'.numDeduped - st.numDeduped == |st'.links| - |st.links|
      && (|st'.links| > |st.links| ==>
            var l := st'.links[|st.links|];
            && !fs.isLink(path) && l.target == path
            && fs.realpath(l.source) != fs.realpath(l.target)
            && InIndex(st'.store.heap, sizes, l.source))
  {
    var st' := CleanupStep(fs, sizes, st, path);
    CleanupStepEffect(fs, sizes, st, path);
    var sz := fs.stat(path).size;
    if !fs.isLink(path) && sz in sizes {
      var r := WalkStep(fs, st.store, path).0.value;
      match FirstMatch(fs, st'.store.heap, r, sizes[sz])
      case None =>
      case Some(i) =>
        var o := sizes[sz][i];
        assert IsMatch(fs, st'.store.heap, r, o);
        assert st'.links[|st.links|] == Link(st'.store.heap[o].abspath, path);
    }
  }

  /** The only facts about one iteration the target order needs. */
  lemma CleanupStepTarget(fs: Fs, sizes: Buckets, st: CleanupState, path: string)
    requires Valid(st.store) && BucketsIn(sizes, |st.store.heap|)
    ensures var st' := CleanupStep(fs, sizes, st, path);
      && st.links <= st'.links && |st'.links| <= |st.links| + 1
      && (|st'.links| > |st.links| ==> !fs.isLink(path) && st'.links[|st.links|].target == path)
  {
    CleanupStepLinks(fs, sizes, st, path);
  }

  /** Over a whole scan: links are only appended, and the counter counts them. */
  lemma {:induction false} CleanupCounts(fs: Fs, sizes: Buckets, st: CleanupState, entries: seq<string>)
    requires Valid(st.store) && BucketsIn(sizes, |st.store.heap|)
    ensures var st' := CleanupEntries(fs, sizes, st, entries);
      st.links <= st'.links && st'.numDeduped - st.numDeduped == |st'.links| - |st.links|
    decreases |entries|
  {
    if entries != [] {
      var st1 := CleanupStep(fs, sizes, st, entries[0]);
      CleanupStepLinks(fs, sizes, st, entries[0]);
      CleanupCounts(fs, sizes, st1, entries[1..]);
    }
  }

  /** No link from position `from` on joins a file to itself. */
  ghost predicate SelfFreeFrom(fs: Fs, links: seq<Link>, from: nat)
  {
    forall i :: from <= i < |links| ==> fs.realpath(links[i].source) != fs.realpath(links[i].target)
  }

  /** Every link from position `from` on has a source in the index. */
  ghost predicate IndexedFrom(heap: seq<CacheItem>, sizes: Buckets, links: seq<Link>, from: nat)
  {
    forall i :: from <= i < |links| ==> InIndex(heap, sizes, links[i].source)
  }

  lemma SelfFreeExtend(fs: Fs, l0: seq<Link>, l1: seq<Link>, l2: seq<Link>)
    requires l0 <= l1 <= l2 && |l1| <= |l0| + 1
    requires |l1| > |l0| ==> fs.realpath(l1[|l0|].source) != fs.realpath(l1[|l0|].target)
    requires SelfFreeFrom(fs, l2, |l1|)
    ensures SelfFreeFrom(fs, l2, |l0|)
  {
  }

  lemma IndexedExtend(fs: Fs, h1: seq<CacheItem>, h2: seq<CacheItem>, sizes: Buckets, l0: seq<Link>, l1: seq<Link>, l2: seq<Link>)
    requires l0 <= l1 <= l2 && |l1| <= |l0| + 1 && Evolves(fs, h1, h2)
    requires |l1| > |l0| ==> InIndex(h1, sizes, l1[|l0|].source)
    requires IndexedFrom(h2, sizes, l2, |l1|)
    ensures IndexedFrom(h2, sizes, l2, |l0|)
  {
    if |l1| > |l0| {
      InIndexEvolves(fs, h1, h2, sizes, l1[|l0|].source);
    }
  }

  /** Over a whole scan: no link joins a file to itself. */
  lemma {:induction false} CleanupNoSelfLinks(fs: Fs, sizes: Buckets, st: CleanupState, entries: seq<string>)
    requires Valid(st.store) && BucketsIn(sizes, |st.store.heap|)
    ensures var st' := CleanupEntries(fs, sizes, st, entries);
      |st.links| <= |st'.links| && SelfFreeFrom(fs, st'.links, |st.links|)
    decreases |entries|
  {
    CleanupCounts(fs, sizes, st, entries);
    if entries != [] {
      var st1 := CleanupStep(fs, sizes, st, entries[0]);
      var st' := CleanupEntries(fs, sizes, st1, entries[1..]);
      CleanupStepLinks(fs, sizes, st, entries[0]);
      CleanupNoSelfLinks(fs, sizes, st1, entries[1..]);
      CleanupCounts(fs, sizes, st1, entries[1..]);
      SelfFreeExtend(fs, st.links, st1.links, st'.links);
    }
  }

  /** Over a whole scan: every link's source is a record of the source index. */
  lemma {:induction false} CleanupSourcesIndexed(fs: Fs, sizes: Buckets, st: CleanupState, entries: seq<string>)
    requires Valid(st.store) && BucketsIn(sizes, |st.store.heap|)
    ensures var st' := CleanupEntries(fs, sizes, st, entries);
      |st.links| <= |st'.links| && IndexedFrom(st'.store.heap, sizes, st'.links, |st.links|)
    decreases |entries|
  {
    CleanupCounts(fs, sizes, st, entries);
    if entries != [] {
      var st1 := CleanupStep(fs, sizes, st, entries[0]);
      var st' := CleanupEntries(fs, sizes, st1, entries[1..]);
      CleanupStepLinks(fs, sizes, st, entries[0]);
      CleanupSourcesIndexed(fs, sizes, st1, entries[1..]);
      CleanupCounts(fs, sizes, st1, entries[1..]);
      IndexedExtend(fs, st1.store.heap, st'.store.heap, sizes, st.links, st1.links, st'.links);
    }
  }

  /** Over a whole scan: the targets of the new links are files of the walk,
      in walk order, at most one link per visited entry. */
  lemma {:induction false} CleanupTargets(fs: Fs, sizes: Buckets, st: CleanupState, entries: seq<string>)
    requires Valid(st.store) && BucketsIn(sizes, |st.store.heap|)
    ensures var st' := CleanupEntries(fs, sizes, st, entries);
      |st.links| <= |st'.links| && Subsequence(Targets(st'.links[|st.links|..]), Files(fs, entries))
    decreases |entries|
  {
    var st' := CleanupEntries(fs, sizes, st, entries);
    if entries == [] {
      assert st.links[|st.links|..] == [];
    } else {
      var e0, rest := entries[0], entries[1..];
      var st1 := CleanupStep(fs, sizes, st, e0);
      assert st' == CleanupEntries(fs, sizes, st1, rest);
      CleanupStepTarget(fs, sizes, st, e0);
      CleanupTargets(fs, sizes, st1, rest);
      CleanupCounts(fs, sizes, st1, rest);
      FilesCons(fs, entries);
      if |st1.links| > |st.links| {
        TargetsGrow(st1.links, st'.links, e0, Files(fs, rest));
      } else {
        TargetsKeep(st'.links, |st.links|, e0, Files(fs, rest), Files(fs, entries));
      }
    }
  }

  /** The target step when the iteration made a link. */
  lemma TargetsGrow(links1: seq<Link>, links: seq<Link>, e0: string, files: seq<string>)
    requires links1 != [] && links1 <= links && links1[|links1| - 1].target == e0
    requires Subsequence(Targets(links[|links1|..]), files)
    ensures Subsequence(Targets(links[|links1| - 1..]), [e0] + files)
  {
    TargetsSplit(links, |links1| - 1);
    SubsequenceCons(Targets(links[|links1|..]), files, e0);
  }

  /** The target step when the iteration made none. */
  lemma TargetsKeep(links: seq<Link>, n: nat, e0: string, files: seq<string>, files': seq<string>)
    requires n <= |links| && Subsequence(Targets(links[n..]), files)
    requires files' == files || files' == [e0] + files
    ensures Subsequence(Targets(links[n..]), files')
  {
    if files' != files {
      SubsequencePrepend(Targets(links[n..]), files, e0);
    }
  }

  lemma FilesCons(fs: Fs, entries: seq<string>)
    requires entries != []
    ensures Files(fs, entries) == (if fs.isLink(entries[0]) then [] else [entries[0]]) + Files(fs, entries[1..])
  {
  }

  lemma TargetsSplit(links: seq<Link>, n: nat)
    requires n < |links|
    ensures Targets(links[n..]) == [links[n].target] + Targets(links[n + 1..])
  {
    assert links[n..][1..] == links[n + 1..];
  }

  /** All three, from position `from`. */
  lemma CleanupLinks(fs: Fs, sizes: Buckets, st: CleanupState, entries: seq<string>)
    requires Valid(st.store) && BucketsIn(sizes, |st.store.heap|)
    ensures var st' := CleanupEntries(fs, sizes, st, entries);
      && st.links <= st'.links
      && st'.numDeduped - st.numDeduped == |st'.links| - |st.links|
      && LinksOk(fs, st'.store.heap, sizes, st'.links, |st.links|, entries)
  {
    CleanupCounts(fs, sizes, st, entries);
    CleanupNoSelfLinks(fs, sizes, st, entries);
    CleanupSourcesIndexed(fs, sizes, st, entries);
    CleanupTargets(fs, sizes, st, entries);
  }

  lemma SubsequenceCons<T>(a: seq<T>, b: seq<T>, x: T)
    requires Subsequence(a, b)
    ensures Subsequence([x] + a, [x] + b)
  {
    assert ([x] + a)[1..] == a && ([x] + b)[1..] == b;
  }

  lemma SubsequencePrepend<T>(a: seq<T>, b: seq<T>, x: T)
    requires Subsequence(a, b)
    ensures Subsequence(a, [x] + b)
  {
    assert ([x] + b)[1..] == b;
  }

  /** One loop iteration obeys the cache rule for its entry. */
  lemma CleanupStepStore(fs: Fs, sizes: Buckets, st: CleanupState, path: string)
    requires Valid(st.store) && BucketsIn(sizes, |st.store.heap|)
    ensures var st' := CleanupStep(fs, sizes, st, path);
      CacheRule(fs, st.store, st'.store, [path]) && StatKeptExcept(st.store.heap, st'.store.heap, path)
  {
    var (y, s1) := WalkStep(fs, st.store, path);
    StepCacheRule(fs, st.store, path);
    if y.Some? {
      assert CleanupStep(fs, sizes, st, path) == Consume(fs, sizes, st.(store := s1), y.value);
    }
  }

  /** The cache rule of `hashwalk` holds of the whole cleanup scan. */
  lemma {:induction false} CleanupCacheRule(fs: Fs, sizes: Buckets, st: CleanupState, entries: seq<string>)
    requires Valid(st.store) && BucketsIn(sizes, |st.store.heap|)
    ensures CacheRule(fs, st.store, CleanupEntries(fs, sizes, st, entries).store, entries)
    decreases |entries|
  {
    if entries != [] {
      var e0, rest := entries[0], entries[1..];
      var st1 := CleanupStep(fs, sizes, st, e0);
      var st2 := CleanupEntries(fs, sizes, st1, rest);
      assert CleanupEntries(fs, sizes, st, entries) == st2;
      CleanupStepStore(fs, sizes, st, e0);
      CleanupCacheRule(fs, sizes, st1, rest);
      assert entries == [e0] + rest;
      CacheRuleCompose(fs, st.store, st1.store, st2.store, e0, rest);
    }
  }

  /** The contract of `cleanup_tree` on a good root. When the walk visits
      each path once, no cleanup file gets more than one link. */
  lemma CleanupTreeContract(fs: Fs, root: string, sizes: Buckets, s: Store)
    requires Valid(s) && BucketsIn(sizes, |s.heap|) && CheckRoot(fs, root).None?
    ensures var res := CleanupTree(fs, root, sizes, s);
      var entries := fs.walk(root);
      && res.Success?
      && res.value.numDeduped == |res.value.links|
      && LinksOk(fs, res.value.store.heap, sizes, res.value.links, 0, entries)
      && CacheRule(fs, s, res.value.store, entries)
      && (Distinct(entries) ==> Distinct(Targets(res.value.links)))
  {
    var entries := fs.walk(root);
    var st0 := CleanupState(s, [], 0);
    var st := CleanupEntries(fs, sizes, st0, entries);
    assert CleanupTree(fs, root, sizes, s) == Success(st);
    CleanupLinks(fs, sizes, st0, entries);
    CleanupCacheRule(fs, sizes, st0, entries);
    assert st.links[0..] == st.links;
    if Distinct(entries) {
      FilesDistinct(fs, entries);
      SubsequenceDistinct(Targets(st.links), Files(fs, entries));
    }
  }

  /** Each link of a successful cleanup scan joins a file of the walk (not a
      symbolic link) to a different file. */
  lemma CleanupLinkFacts(fs: Fs, root: string, sizes: Buckets, s: Store, l: Link)
    requires Valid(s) && BucketsIn(sizes, |s.heap|) && CheckRoot(fs, root).None?
    requires l in CleanupTree(fs, root, sizes, s).value.links
    ensures fs.realpath(l.source) != fs.realpath(l.target)
    ensures l.target in fs.walk(root) && !fs.isLink(l.target)
  {
    var links := CleanupTree(fs, root, sizes, s).value.links;
    CleanupTreeContract(fs, root, sizes, s);
    var i :| 0 <= i < |links| && links[i] == l;
    assert links[0..] == links;
    assert SelfFreeFrom(fs, links, 0);
    SubsequenceIn(Targets(links), Files(fs, fs.walk(root)));
    assert Targets(links)[i] == l.target;
  }

  /** A walk without repeated paths has no repeated files. */
  lemma {:induction false} FilesDistinct(fs: Fs, entries: seq<string>)
    requires Distinct(entries)
    ensures Distinct(Files(fs, entries))
    decreases |entries|
  {
    if entries != [] {
      var rest := entries[1..];
      DistinctTail(entries);
      FilesDistinct(fs, rest);
      var f := Files(fs, entries);
      var fr := Files(fs, rest);
      if !fs.isLink(entries[0]) {
        assert f == [entries[0]] + fr;
        forall i, j | 0 <= i < j < |f| ensures f[i] != f[j] {
          if i == 0 {
            assert f[j] == fr[j - 1];
            assert f[j] in fr;
            assert f[j] in rest;
          } else {
            assert f[i] == fr[i - 1] && f[j] == fr[j - 1];
          }
        }
      }
    }
  }
}

=== FILE: errors.dfy ===
/** The exceptions dedoop raises, as values. */
module Errors {

  /** Why a tree root was refused by `hashwalk`. */
  datatype RootProblem = DoesNotExist | NotADirectory

  datatype Error =
    | BadRoot(root: string, problem: RootProblem)
      /** The cache file is absent and its directory is not writable. */
    | CannotCreateCacheFile(cachePath: string)
      /** `write_cache` found a cache key that differs from its record's path
          (the `assert` in the source). */
    | KeyMismatch(key: string)
      /** `write_cache` could not create its temporary file or rename it
          over the cache file (the `IOError`/`OSError` it lets escape). */
    | CannotWriteCacheFile(cachePath: string)
      /** `main` refuses a cleanup tree that is the source tree itself. */
    | SameRoot(source: string, cleanup: string)
}

=== FILE: filesystem.dfy ===
/** The filesystem as seen by dedoop: a bundle of oracle functions. Nothing in
    the model performs I/O; every fact about paths comes from these oracles,
    and the filesystem does not change while a run is modelled. */
module FileSystem {

  /** What `os.stat` reports that dedoop uses: the byte size and the
      modification time as a (floating-point) number of seconds. */
  datatype StatInfo = StatInfo(size: int, mtime: real)

  /** Python's `int(x)` on a float: truncation toward zero. */
  function Trunc(x: real): (n: int)
    ensures 0.0 <= x ==> 0 <= n && n as real <= x < n as real + 1.0
    ensures x < 0.0 ==> n <= 0 && n as real - 1.0 < x <= n as real
  {
    if x >= 0.0 then x.Floor else -((-x).Floor)
  }

  /** The oracles.
      - `pathExists`, `isDir`, `isLink`: `os.path.exists`, `os.path.isdir`, `os.path.islink`
      - `realpath`: `os.path.realpath`
      - `stat`: `os.stat`
      - `contentHash`: the hex digest of a file's content (the SHA-1 read is not modelled)
      - `walk`: the absolute paths of the files `os.walk` lists under a root, in traversal order
      - `writable`: `os.access(dir, os.W_OK)` */
  datatype Fs = Fs(
    pathExists: string -> bool,
    isDir: string -> bool,
    isLink: string -> bool,
    realpath: string -> string,
    stat: string -> StatInfo,
    contentHash: string -> string,
    walk: string -> seq<string>,
    writable: string -> bool
  )
}

=== FILE: hashwalk.dfy ===
/** `hashwalk`: walk a tree and produce one record per regular file,
    consulting and maintaining the cache. The Python generator interleaves
    its per-file work with its consumer; the model exposes that per-file work
    as `WalkStep`, which every consumer folds over the walk. */
module HashWalk {
  import opened Wrappers
  import opened FileSystem
  import opened Errors
  import opened CacheItems
  import opened CacheStore

  /** The root check made once, before any entry is looked at. */
  function CheckRoot(fs: Fs, root: string): (e: Option<Error>)
    ensures e.None? <==> fs.pathExists(root) && fs.isDir(root)
    ensures e.Some? ==> e.value.BadRoot? && e.value.root == root
    ensures e == Some(BadRoot(root, DoesNotExist)) <==> !fs.pathExists(root)
  {
    if !fs.pathExists(root) then Some(BadRoot(root, DoesNotExist))
    else if !fs.isDir(root) then Some(BadRoot(root, NotADirectory))
    else None
  }

  /** A cache hit: the path is cached and its record still verifies. */
  predicate Hit(fs: Fs, s: Store, path: string)
    requires Valid(s)
  {
    path in s.cache && Verify(fs, s.heap[s.cache[path]])
  }

  /** The entries of a walk that are not symbolic links, in walk order. */
  function Files(fs: Fs, entries: seq<string>): (fs': seq<string>)
    ensures forall p :: p in fs' <==> p in entries && !fs.isLink(p)
    ensures |fs'| <= |entries|
  {
    if entries == [] then []
    else (if fs.isLink(entries[0]) then [] else [entries[0]]) + Files(fs, entries[1..])
  }

  /** The per-entry body of the walk loop. Returns the record yielded for
      the entry (none for a symbolic link) and the store afterwards. */
  function WalkStep(fs: Fs, s: Store, path: string): (res: (Option<Ref>, Store))
    requires Valid(s)
    ensures Valid(res.1)
    ensures s.heap <= res.1.heap
    ensures res.0.None? <==> fs.isLink(path)
    ensures fs.isLink(path) ==> path !in res.1.cache && res.1.heap == s.heap
    ensures res.0.Some? ==> path in res.1.cache && res.1.cache[path] == res.0.value
    ensures res.0.Some? && Hit(fs, s, path) ==> res.0.value == s.cache[path] && res.1.heap == s.heap
    ensures res.0.Some? && !Hit(fs, s, path) ==> res.0.value == |s.heap| && res.1.heap == s.heap + [Bare(path)]
    ensures res.0.Some? ==> SizeValue(fs, res.1.heap[res.0.value]) == fs.stat(path).size
    ensures forall k :: k != path ==> (k in res.1.cache <==> k in s.cache)
    ensures forall k :: k != path && k in s.cache ==> res.1.cache[k] == s.cache[k]
  {
    if fs.isLink(path) then
      (None, s.(cache := s.cache - {path}))
    else if path in s.cache && Verify(fs, s.heap[s.cache[path]]) then
      (Some(s.cache[path]), s)
    else
      var r := |s.heap|;
      (Some(r), Store(s.heap + [Bare(path)], s.cache[path := r]))
  }

  /** The cache rule of a whole walk over `entries`, relating the store
      before (`s`) and after (`s'`):
      - a path the walk does not visit keeps its entry (or its absence);
      - a symbolic link visited has no entry afterwards;
      - a file visited has an entry: the one it had when that entry
        verified, otherwise a record created during the walk. */
  ghost predicate CacheRule(fs: Fs, s: Store, s': Store, entries: seq<string>)
    requires Valid(s)
  {
    && (forall k :: k !in entries ==> (k in s'.cache <==> k in s.cache))
    && (forall k :: k !in entries && k in s.cache ==> k in s'.cache && s'.cache[k] == s.cache[k])
    && (forall e :: e in entries && fs.isLink(e) ==> e !in s'.cache)
    && (forall e :: e in entries && !fs.isLink(e) ==> e in s'.cache)
    && (forall e :: e in entries && !fs.isLink(e) && Hit(fs, s, e) ==> s'.cache[e] == s.cache[e])
    && (forall e :: e in entries && !fs.isLink(e) && !Hit(fs, s, e) ==> s'.cache[e] >= |s.heap|)
  }

  /** The walk loop with nobody consuming the records. */
  function WalkEntries(fs: Fs, s: Store, entries: seq<string>): (res: (seq<Ref>, Store))
    requires Valid(s)
    ensures Valid(res.1)
    ensures s.heap <= res.1.heap
    ensures forall r :: |s.heap| <= r < |res.1.heap| ==> res.1.heap[r] == Bare(res.1.heap[r].abspath)
    ensures AllIn(res.0, |res.1.heap|)
    ensures Paths(res.1.heap, res.0) == Files(fs, entries)
    decreases |entries|
  {
    if entries == [] then ([], s)
    else
      var (y, s1) := WalkStep(fs, s, entries[0]);
      var (ys, s2) := WalkEntries(fs, s1, entries[1..]);
      assert s.heap <= s2.heap;
      (if y.Some? then [y.value] + ys else ys, s2)
  }

  /** `hashwalk(root, cache)` run to the end on its own: `BadRoot` before
      anything else, then the walk. No caller of the model uses it: the
      generator's consumers (`SizeIndex.GetTreeFilesizes`,
      `Cleanup.CleanupTree`) interleave `WalkStep` with their own work, so
      each does the same `CheckRoot` and its own fold; their contracts state
      the same root check and, through `WalkEntriesCacheRule`, the same
      cache rule. */
  function Walk(fs: Fs, root: string, s: Store): (res: Result<(seq<Ref>, Store), Error>)
    requires Valid(s)
    ensures res.Failure? <==> CheckRoot(fs, root).Some?
    ensures res.Failure? ==> res.error == CheckRoot(fs, root).value
    ensures res.Success? ==> res.value == WalkEntries(fs, s, fs.walk(root))
  {
    match CheckRoot(fs, root)
    case Some(e) => Failure(e)
    case None => Success(WalkEntries(fs, s, fs.walk(root)))
  }

  /** A single walk step obeys the cache rule for its entry. */
  lemma StepCacheRule(fs: Fs, s: Store, path: string)
    requires Valid(s)
    ensures CacheRule(fs, s, WalkStep(fs, s, path).1, [path])
  {
  }

  /** The cache rule composes: a step over `e0` (walk step plus whatever its
      consumer does to the records of `e0` and to checksums), then a scan of
      `rest`, obey the rule over `[e0] + rest`. */
  lemma CacheRuleCompose(fs: Fs, s: Store, s1: Store, s2: Store, e0: string, rest: seq<string>)
    requires Valid(s) && Valid(s1)
    requires CacheRule(fs, s, s1, [e0]) && CacheRule(fs, s1, s2, rest)
    requires Evolves(fs, s.heap, s1.heap) && StatKeptExcept(s.heap, s1.heap, e0)
    ensures CacheRule(fs, s, s2, [e0] + rest)
  {
    var entries := [e0] + rest;
    assert forall k :: k in entries <==> k == e0 || k in rest;
    forall e | e in rest && e != e0
      ensures Hit(fs, s1, e) <==> Hit(fs, s, e)
    {
      if e in s.cache {
        var x := s.cache[e];
        assert s1.cache[e] == x;
        assert s.heap[x].abspath == e;
        assert s1.heap[x].abspath == e && s1.heap[x].size == s.heap[x].size && s1.heap[x].mtime == s.heap[x].mtime;
      }
    }
    if !fs.isLink(e0) && Hit(fs, s, e0) {
      var x := s.cache[e0];
      assert Refines(fs, s.heap[x], s1.heap[x]);
      assert Hit(fs, s1, e0);
    }
  }

  /** The cache rule holds of every walk. */
  lemma {:induction false} WalkEntriesCacheRule(fs: Fs, s: Store, entries: seq<string>)
    requires Valid(s)
    ensures CacheRule(fs, s, WalkEntries(fs, s, entries).1, entries)
    decreases |entries|
  {
    if entries != [] {
      var e0, rest := entries[0], entries[1..];
      var s1 := WalkStep(fs, s, e0).1;
      assert WalkEntries(fs, s, entries).1 == WalkEntries(fs, s1, rest).1;
      StepCacheRule(fs, s, e0);
      WalkEntriesCacheRule(fs, s1, rest);
      EvolvesReflexive(fs, s.heap);
      assert entries == [e0] + rest;
      CacheRuleCompose(fs, s, s1, WalkEntries(fs, s1, rest).1, e0, rest);
    }
  }

  /** No path occurs twice: how `os.walk` lists a tree. */
  predicate Distinct<T(==)>(s: seq<T>)
  {
    forall i, j :: 0 <= i < j < |s| ==> s[i] != s[j]
  }

  lemma DistinctTail<T>(s: seq<T>)
    requires Distinct(s) && s != []
    ensures Distinct(s[1..]) && s[0] !in s[1..]
  {
    forall i, j | 0 <= i < j < |s[1..]| ensures s[1..][i] != s[1..][j] {
      assert s[1..][i] == s[i + 1] && s[1..][j] == s[j + 1];
    }
    forall j | 0 <= j < |s[1..]| ensures s[1..][j] != s[0] {
      assert s[1..][j] == s[j + 1];
    }
  }

  /** Record `r` is the cache entry for its own path. */
  predicate IsCacheEntry(r: Ref, s: Store)
  {
    r < |s.heap| && s.heap[r].abspath in s.cache && s.cache[s.heap[r].abspath] == r
  }

  predicate YieldedAreCached(ys: seq<Ref>, s: Store)
  {
    forall i :: 0 <= i < |ys| ==> IsCacheEntry(ys[i], s)
  }

  /** Every record a walk yields is the cache entry for its path, provided the
      walk visits each path once (as `os.walk` does). */
  lemma {:induction false} WalkYieldsCacheEntries(fs: Fs, s: Store, entries: seq<string>)
    requires Valid(s)
    requires Distinct(entries)
    ensures YieldedAreCached(WalkEntries(fs, s, entries).0, WalkEntries(fs, s, entries).1)
    decreases |entries|
  {
    if entries != [] {
      var e0 := entries[0];
      var rest := entries[1..];
      var (y, s1) := WalkStep(fs, s, e0);
      var (ys, s2) := WalkEntries(fs, s1, rest);
      var all := if y.Some? then [y.value] + ys else ys;
      assert WalkEntries(fs, s, entries) == (all, s2);
      DistinctTail(entries);
      WalkYieldsCacheEntries(fs, s1, rest);
      forall i | 0 <= i < |all|
        ensures IsCacheEntry(all[i], s2)
      {
        if y.Some? && i == 0 {
          WalkKeepsUnvisited(fs, s1, rest, e0);
          assert s2.heap[y.value] == s1.heap[y.value];
          assert s1.heap[y.value].abspath == e0;
        } else if y.Some? {
          assert all[i] == ys[i - 1];
        }
      }
    }
  }

  /** A walk leaves the cache entry of a path it does not visit alone. */
  lemma WalkKeepsUnvisited(fs: Fs, s: Store, entries: seq<string>, k: string)
    requires Valid(s) && k !in entries
    ensures var s' := WalkEntries(fs, s, entries).1;
      (k in s'.cache <==> k in s.cache) && (k in s.cache ==> s'.cache[k] == s.cache[k])
  {
    WalkEntriesCacheRule(fs, s, entries);
  }
}

=== FILE: link_actions.dfy ===
/** The three things `cleanup_tree` can do with a duplicate it found, how
    `main` picks one from its flags, and what each does with a whole run's
    worth of links. The filesystem effects are recorded, not applied. */
module LinkActions {
  import opened FileSystem
  import opened Cleanup

  /** `print_cleanup_command`, `create_symlink`, `prompt_before_symlinking`. */
  datatype Strategy = PrintCommand | CreateSymlink | PromptBeforeSymlinking

  /** The command-line settings `main` reads, with their defaults below. */
  datatype Options = Options(dryRun: bool, prompt: bool, showSourceDupes: bool, minFilesize: int)

  /** `--min_filesize` defaults to 300 MiB. */
  const DefaultMinFilesize: int := 1024 * 1024 * 300

  /** Dry run and prompting are on unless turned off; source duplicates are
      not shown unless asked for. */
  const Defaults: Options := Options(true, true, false, DefaultMinFilesize)

  /** The strategy `main` hands to `cleanup_tree`: printing unless dry run is
      off, then prompting unless that is off too. */
  function SelectStrategy(opts: Options): (s: Strategy)
    ensures s == PrintCommand <==> opts.dryRun
    ensures s == PromptBeforeSymlinking <==> !opts.dryRun && opts.prompt
    ensures s == CreateSymlink <==> !opts.dryRun && !opts.prompt
  {
    if !opts.dryRun then
      if opts.prompt then PromptBeforeSymlinking else CreateSymlink
    else PrintCommand
  }

  lemma DefaultsOnlyPrint()
    ensures SelectStrategy(Defaults) == PrintCommand
    ensures !Defaults.showSourceDupes && Defaults.minFilesize == 314572800
  {
  }

  /** Python's `str.lower()` on one character, for ASCII letters. */
  function LowerChar(c: char): (d: char)
    ensures 'A' <= c <= 'Z' ==> d as int == c as int + 32
    ensures !('A' <= c <= 'Z') ==> d == c
    ensures 'a' <= d <= 'z' <==> 'a' <= c <= 'z' || 'A' <= c <= 'Z'
  {
    if 'A' <= c <= 'Z' then (c as int + 32) as char else c
  }

  function Lower(s: string): (t: string)
    ensures |t| == |s| && forall i :: 0 <= i < |s| ==> t[i] == LowerChar(s[i])
  {
    if s == [] then [] else [LowerChar(s[0])] + Lower(s[1..])
  }

  /** The prompt's reading of an answer: the link is skipped exactly when
      the lower-cased answer starts with `n`. */
  predicate Declines(answer: string)
  {
    var choice := Lower(answer);
    |choice| > 0 && choice[0] == 'n'
  }

  lemma DeclinesFirstLetter(answer: string)
    ensures Declines(answer) <==> |answer| > 0 && (answer[0] == 'n' || answer[0] == 'N')
  {
    if |answer| > 0 {
      assert Lower(answer)[0] == LowerChar(answer[0]);
    }
  }

  /** An empty answer, "y", "yes" or anything else not starting with n
      makes the link; "no", "N" and "nope" do not. */
  lemma DeclinesExamples()
    ensures !Declines("") && !Declines("y") && !Declines("Yes") && !Declines("x")
    ensures Declines("n") && Declines("No") && Declines("nope")
  {
    DeclinesFirstLetter("");
    DeclinesFirstLetter("y");
    DeclinesFirstLetter("Yes");
    DeclinesFirstLetter("x");
    DeclinesFirstLetter("n");
    DeclinesFirstLetter("No");
    DeclinesFirstLetter("nope");
  }

  /** What a strategy did for one duplicate: printed the `ln -sf` command,
      replaced the duplicate with a symbolic link to the original, or was
      told not to. */
  datatype Effect = Printed(link: Link) | Linked(link: Link) | Declined(link: Link)

  /** One callback invocation; `reply` stands for what the user types at the
      prompt for that link. */
  function Act(strategy: Strategy, reply: Link -> string, l: Link): (e: Effect)
    ensures e.link == l
    ensures e.Printed? <==> strategy == PrintCommand
    ensures e.Linked? <==> strategy == CreateSymlink || (strategy == PromptBeforeSymlinking && !Declines(reply(l)))
  {
    match strategy
    case PrintCommand => Printed(l)
    case CreateSymlink => Linked(l)
    case PromptBeforeSymlinking => if Declines(reply(l)) then Declined(l) else Linked(l)
  }

  /** The callbacks for all links of a run, in order. */
  function Effects(strategy: Strategy, reply: Link -> string, links: seq<Link>): (es: seq<Effect>)
    ensures |es| == |links|
    ensures forall i :: 0 <= i < |links| ==> es[i] == Act(strategy, reply, links[i])
  {
    if links == [] then [] else [Act(strategy, reply, links[0])] + Effects(strategy, reply, links[1..])
  }

  /** The links a run of effects actually made on disk. */
  function Made(es: seq<Effect>): (ls: seq<Link>)
  {
    if es == [] then []
    else (if es[0].Linked? then [es[0].link] else []) + Made(es[1..])
  }

  lemma {:induction false} MadeAreEffects(es: seq<Effect>, l: Link)
    ensures l in Made(es) <==> Linked(l) in es
  {
    if es != [] {
      MadeAreEffects(es[1..], l);
      assert es == [es[0]] + es[1..];
    }
  }

  /** Dry run touches nothing; no-prompt mode makes every link; prompting
      makes exactly the links whose answer does not start with n. */
  lemma {:induction false} StrategyOutcomes(strategy: Strategy, reply: Link -> string, links: seq<Link>, l: Link)
    ensures var made := Made(Effects(strategy, reply, links));
      && (strategy == PrintCommand ==> made == [])
      && (strategy == CreateSymlink ==> made == links)
      && (strategy == PromptBeforeSymlinking ==> (l in made <==> l in links && !Declines(reply(l))))
  {
    var es := Effects(strategy, reply, links);
    MadeAreEffects(es, l);
    MadeOf(strategy, reply, links);
    if strategy == PromptBeforeSymlinking {
      if Linked(l) in es {
        var i :| 0 <= i < |es| && es[i] == Linked(l);
        assert links[i] == l;
      }
      if l in links && !Declines(reply(l)) {
        var i :| 0 <= i < |links| && links[i] == l;
        assert es[i] == Linked(l);
      }
    }
  }

  lemma {:induction false} MadeOf(strategy: Strategy, reply: Link -> string, links: seq<Link>)
    ensures strategy == PrintCommand ==> Made(Effects(strategy, reply, links)) == []
    ensures strategy == CreateSymlink ==> Made(Effects(strategy, reply, links)) == links
  {
    if links != [] {
      MadeOf(strategy, reply, links[1..]);
      assert Effects(strategy, reply, links)[1..] == Effects(strategy, reply, links[1..]);
    }
  }

  /** Every link made on disk is one the scan asked for. */
  lemma StrategyMadeFromLinks(strategy: Strategy, reply: Link -> string, links: seq<Link>, l: Link)
    requires l in Made(Effects(strategy, reply, links))
    ensures l in links
  {
    var es := Effects(strategy, reply, links);
    MadeAreEffects(es, l);
    var i :| 0 <= i < |es| && es[i] == Linked(l);
    assert links[i] == l;
  }

  /** Whatever the strategy, every link made on disk is one the scan asked
      for, so no file is ever made a link to itself. */
  lemma MadeNeverSelfLinks(fs: Fs, strategy: Strategy, reply: Link -> string, links: seq<Link>, l: Link)
    requires forall i :: 0 <= i < |links| ==> fs.realpath(links[i].source) != fs.realpath(links[i].target)
    requires l in Made(Effects(strategy, reply, links))
    ensures l in links && fs.realpath(l.source) != fs.realpath(l.target)
  {
    var es := Effects(strategy, reply, links);
    MadeAreEffects(es, l);
    var i :| 0 <= i < |es| && es[i] == Linked(l);
    assert links[i] == l;
  }
}

=== FILE: persistence.dfy ===
/** The cache file. Each line holds one record as the four-element list
    `[abspath, mtime, size, checksum]` (`CacheItemEncoder.default`); the
    model works on that list form, not on JSON text. */
module Persistence {
  import opened Wrappers
  import opened FileSystem
  import opened Errors
  import opened CacheItems
  import opened CacheStore
  import opened HashWalk

  /** One line of the cache file. */
  datatype Row = Row(path: string, mtime: Option<int>, size: Option<int>, checksum: Option<string>)

  /** `CacheItem(values[0], mtime=values[1], size=values[2], checksum=values[3])`. */
  function Decode(row: Row): (item: CacheItem)
  {
    CacheItem(row.path, row.mtime, row.size, row.checksum)
  }

  /** `CacheItemEncoder.default`: the stored fields only. No filesystem is
      consulted, so no lazy field is computed, and decoding gives back the
      very same record, absent fields included. */
  function Encode(item: CacheItem): (row: Row)
    ensures Decode(row) == item
    ensures row.checksum.None? <==> item.checksum.None?
  {
    Row(item.abspath, item.mtime, item.size, item.checksum)
  }

  lemma DecodeEncode(row: Row)
    ensures Encode(Decode(row)) == row
  {
  }

  /** Every ref of the cache names a record: how a Python dict of objects
      always is. */
  predicate RefsIn(s: Store)
  {
    forall k :: k in s.cache ==> s.cache[k] < |s.heap|
  }

  /** The key at position `i` of `keys` is the path of its record. */
  predicate KeyMatches(s: Store, keys: seq<string>, i: nat)
    requires RefsIn(s) && i < |keys| && keys[i] in s.cache
  {
    s.heap[s.cache[keys[i]]].abspath == keys[i]
  }

  /** `e` reports key `i`, the first whose record has another path. */
  predicate MismatchAt(s: Store, keys: seq<string>, e: Error, i: nat)
    requires RefsIn(s) && forall i :: 0 <= i < |keys| ==> keys[i] in s.cache
  {
    && i < |keys| && !KeyMatches(s, keys, i) && e == KeyMismatch(keys[i])
    && forall j :: 0 <= j < i ==> KeyMatches(s, keys, j)
  }

  ghost predicate FirstMismatch(s: Store, keys: seq<string>, e: Error)
    requires RefsIn(s) && forall i :: 0 <= i < |keys| ==> keys[i] in s.cache
  {
    exists i :: MismatchAt(s, keys, e, i)
  }

  /** The lines `write_cache` prints for the keys in `keys`, in that order,
      stopping at the first key whose record has another path (the
      `assert` in the loop). */
  function Rows(s: Store, keys: seq<string>): (res: Result<seq<Row>, Error>)
    requires RefsIn(s) && forall i :: 0 <= i < |keys| ==> keys[i] in s.cache
    ensures res.Success? <==> forall i :: 0 <= i < |keys| ==> KeyMatches(s, keys, i)
    ensures res.Failure? ==> FirstMismatch(s, keys, res.error)
    ensures res.Success? ==> |res.value| == |keys|
    ensures res.Success? ==> forall i :: 0 <= i < |keys| ==> res.value[i] == Encode(s.heap[s.cache[keys[i]]])
    decreases |keys|
  {
    if keys == [] then Success([])
    else
      var item := s.heap[s.cache[keys[0]]];
      if item.abspath != keys[0] then
        assert MismatchAt(s, keys, KeyMismatch(keys[0]), 0);
        Failure(KeyMismatch(keys[0]))
      else
        match Rows(s, keys[1..])
        case Failure(e) =>
          ghost var i: nat :| MismatchAt(s, keys[1..], e, i);
          assert MismatchAt(s, keys, e, i + 1) by {
            forall j | 0 <= j < i + 1 ensures KeyMatches(s, keys, j) {
              if j > 0 {
                assert KeyMatches(s, keys[1..], j - 1);
              }
            }
          }
          Failure(e)
        case Success(rows) =>
          assert forall i :: 0 <= i < |keys| ==> KeyMatches(s, keys, i) by {
            forall i | 0 <= i < |keys| ensures KeyMatches(s, keys, i) {
              if i > 0 {
                assert KeyMatches(s, keys[1..], i - 1);
              }
            }
          }
          Success([Encode(item)] + rows)
  }

  /** `order` is an iteration order of the cache dict: every key once. */
  ghost predicate Enumerates(s: Store, order: seq<string>)
  {
    && Distinct(order)
    && (forall k :: k in s.cache <==> k in order)
  }

  /** `write_cache(cache_path, cache)`: the lines of the new file, in the
      dict's iteration `order`, or the key mismatch that stops it. */
  function WriteCache(s: Store, order: seq<string>): (res: Result<seq<Row>, Error>)
    requires RefsIn(s) && Enumerates(s, order)
    ensures Valid(s) ==> res.Success?
    ensures res.Failure? ==> !Valid(s) && res.error.KeyMismatch? && res.error.key in s.cache
    ensures res.Success? ==> |res.value| == |s.cache| == |order|
    ensures res.Success? ==> forall i :: 0 <= i < |order| ==> res.value[i] == Encode(s.heap[s.cache[order[i]]])
  {
    var res := Rows(s, order);
    if res.Success? then
      DistinctCount(s, order);
      res
    else
      res
  }

  /** A distinct enumeration of the keys has as many entries as there are keys. */
  lemma {:induction false} DistinctCount(s: Store, order: seq<string>)
    requires Enumerates(s, order)
    ensures |order| == |s.cache|
  {
    SetOfDistinct(order);
    assert (set i | 0 <= i < |order| :: order[i]) == s.cache.Keys;
  }

  lemma {:induction false} SetOfDistinct(xs: seq<string>)
    requires Distinct(xs)
    ensures |set i | 0 <= i < |xs| :: xs[i]| == |xs|
    decreases |xs|
  {
    if xs != [] {
      var rest := xs[..|xs| - 1];
      SetOfDistinct(rest);
      var a := set i | 0 <= i < |rest| :: rest[i];
      var b := set i | 0 <= i < |xs| :: xs[i];
      assert b == a + {xs[|xs| - 1]};
      assert xs[|xs| - 1] !in a;
    }
  }

  /** The lines of the cache file read in order; each line's record goes in
      under its own path, so a later line for the same path replaces an
      earlier one. Record `i` of the store comes from line `i`. */
  function LoadRows(rows: seq<Row>): (s: Store)
    ensures Valid(s) && |s.heap| == |rows|
    ensures forall i :: 0 <= i < |rows| ==> s.heap[i] == Decode(rows[i])
    decreases |rows|
  {
    if rows == [] then Empty
    else
      var s := LoadRows(rows[..|rows| - 1]);
      var row := rows[|rows| - 1];
      Store(s.heap + [Decode(row)], s.cache[row.path := |s.heap|])
  }

  /** Line `i` is the last line for path `p`. */
  predicate LastFor(rows: seq<Row>, p: string, i: nat)
  {
    i < |rows| && rows[i].path == p && forall j :: i < j < |rows| ==> rows[j].path != p
  }

  /** Last wins: the loaded cache has a key for exactly the paths of the
      file, and each key's record is decoded from the last line with that
      path. */
  lemma LoadLastWins(rows: seq<Row>, p: string)
    ensures var s := LoadRows(rows);
      && (p in s.cache <==> exists i :: 0 <= i < |rows| && rows[i].path == p)
      && (p in s.cache ==> LastFor(rows, p, s.cache[p]) && s.heap[s.cache[p]] == Decode(rows[s.cache[p]]))
  {
    LoadKeys(rows, p);
    if p in LoadRows(rows).cache {
      LoadLast(rows, p);
    }
  }

  lemma {:induction false} LoadKeys(rows: seq<Row>, p: string)
    ensures p in LoadRows(rows).cache <==> exists i :: 0 <= i < |rows| && rows[i].path == p
    decreases |rows|
  {
    if rows != [] {
      var front := rows[..|rows| - 1];
      LoadKeys(front, p);
      if rows[|rows| - 1].path != p {
        if exists i :: 0 <= i < |rows| && rows[i].path == p {
          var i :| 0 <= i < |rows| && rows[i].path == p;
          assert front[i] == rows[i];
        }
        if exists i :: 0 <= i < |front| && front[i].path == p {
          var i :| 0 <= i < |front| && front[i].path == p;
          assert rows[i] == front[i];
        }
      }
    }
  }

  lemma {:induction false} LoadLast(rows: seq<Row>, p: string)
    requires p in LoadRows(rows).cache
    ensures LastFor(rows, p, LoadRows(rows).cache[p])
    decreases |rows|
  {
    var front := rows[..|rows| - 1];
    if rows[|rows| - 1].path != p {
      LoadLast(front, p);
      var m := LoadRows(front).cache[p];
      assert forall j :: m < j < |front| ==> front[j] == rows[j];
    }
  }

  /** Writing a valid cache and loading the lines back gives a cache with the
      same keys whose records are identical to the written ones, lazy fields
      that were never computed staying absent. */
  lemma RoundTrip(s: Store, order: seq<string>)
    requires Valid(s) && Enumerates(s, order)
    ensures WriteCache(s, order).Success?
    ensures SameCache(s, LoadRows(WriteCache(s, order).value))
  {
    var rows := WriteCache(s, order).value;
    var s' := LoadRows(rows);
    forall k | k in s.cache
      ensures k in s'.cache && s'.heap[s'.cache[k]] == s.heap[s.cache[k]]
    {
      RoundTripRecord(s, order, rows, k);
    }
    forall k | k in s'.cache
      ensures k in s.cache
    {
      RoundTripKey(s, order, rows, k);
    }
    SameCacheIntro(s, s');
  }

  /** Two caches with the same keys and identical records under each. */
  predicate SameCache(s: Store, s': Store)
    requires Valid(s) && Valid(s')
  {
    && s'.cache.Keys == s.cache.Keys
    && forall k :: k in s.cache ==> s'.heap[s'.cache[k]] == s.heap[s.cache[k]]
  }

  lemma SameCacheIntro(s: Store, s': Store)
    requires Valid(s) && Valid(s')
    requires forall k :: k in s.cache ==> k in s'.cache && s'.heap[s'.cache[k]] == s.heap[s.cache[k]]
    requires forall k :: k in s'.cache ==> k in s.cache
    ensures SameCache(s, s')
  {
  }

  /** Line `i` of a written valid cache carries the path `order[i]`. */
  lemma WrittenPaths(s: Store, order: seq<string>, rows: seq<Row>, i: nat)
    requires Valid(s) && Enumerates(s, order) && WriteCache(s, order) == Success(rows) && i < |order|
    ensures i < |rows| && rows[i].path == order[i] && Decode(rows[i]) == s.heap[s.cache[order[i]]]
  {
    assert order[i] in s.cache;
  }

  lemma RoundTripRecord(s: Store, order: seq<string>, rows: seq<Row>, k: string)
    requires Valid(s) && Enumerates(s, order) && WriteCache(s, order) == Success(rows) && k in s.cache
    ensures var s' := LoadRows(rows);
      k in s'.cache && s'.heap[s'.cache[k]] == s.heap[s.cache[k]]
  {
    var i :| 0 <= i < |order| && order[i] == k;
    WrittenPaths(s, order, rows, i);
    LoadLastWins(rows, k);
    var m := LoadRows(rows).cache[k];
    WrittenPaths(s, order, rows, m);
  }

  lemma RoundTripKey(s: Store, order: seq<string>, rows: seq<Row>, k: string)
    requires Valid(s) && Enumerates(s, order) && WriteCache(s, order) == Success(rows)
    requires k in LoadRows(rows).cache
    ensures k in s.cache
  {
    LoadLastWins(rows, k);
    var i :| 0 <= i < |rows| && rows[i].path == k;
    WrittenPaths(s, order, rows, i);
  }

  /** Index of the last `/` in `p`, if any. */
  function LastSlash(p: string): (i: Option<nat>)
    ensures i.None? <==> '/' !in p
    ensures i.Some? ==> i.value < |p| && p[i.value] == '/' && '/' !in p[i.value + 1..]
    decreases |p|
  {
    if p == [] then None
    else if p[|p| - 1] == '/' then Some(|p| - 1)
    else
      var i := LastSlash(p[..|p| - 1]);
      assert p == p[..|p| - 1] + [p[|p| - 1]];
      if i.Some? then
        assert p[i.value + 1..] == p[..|p| - 1][i.value + 1..] + [p[|p| - 1]];
        i
      else
        i
  }

  function TrimSlashes(s: string): (t: string)
    ensures t <= s && (t != [] ==> t[|t| - 1] != '/')
    ensures forall i :: |t| <= i < |s| ==> s[i] == '/'
    decreases |s|
  {
    if s != [] && s[|s| - 1] == '/' then TrimSlashes(s[..|s| - 1]) else s
  }

  /** `os.path.dirname` on POSIX: everything before the last `/`, with
      trailing slashes removed unless it is all slashes; "" for a path
      with no `/`. */
  function Dirname(p: string): (d: string)
  {
    match LastSlash(p)
    case None => ""
    case Some(i) =>
      var head := p[..i + 1];
      if forall c :: c in head ==> c == '/' then head else TrimSlashes(head)
  }

  lemma DirnameEmpty(p: string)
    ensures Dirname(p) == "" <==> '/' !in p
  {
    match LastSlash(p)
    case None =>
    case Some(i) =>
      var head := p[..i + 1];
      if !(forall c :: c in head ==> c == '/') {
        var j :| 0 <= j < |head| && head[j] != '/';
        assert j < |TrimSlashes(head)|;
      }
  }

  /** The directory of `dir + "/" + name`, for a plain file name and a
      directory without a trailing slash, is that directory. */
  lemma DirnameOfJoin(dir: string, name: string)
    requires dir != [] && dir[|dir| - 1] != '/' && '/' !in name
    ensures Dirname(dir + "/" + name) == dir
  {
    var p := dir + "/" + name;
    assert p[|dir|] == '/' && p[|dir| + 1..] == name;
    assert forall j :: |dir| < j < |p| ==> p[j] == name[j - |dir| - 1];
    var head := p[..|dir| + 1];
    assert head == dir + "/";
    assert head[|dir| - 1] == dir[|dir| - 1];
    assert head[|dir| - 1] in head && head[|dir| - 1] != '/';
    assert TrimSlashes(head) == dir;
  }

  /** `os.access(d, os.W_OK)`: the empty path names no file, so it is never
      writable. */
  predicate Access(fs: Fs, d: string)
  {
    d != "" && fs.writable(d)
  }

  /** The directory a relative file name would be created in: the current
      one. */
  function ParentDir(p: string): (d: string)
    ensures d != ""
    ensures '/' !in p ==> d == "."
    ensures '/' in p ==> d == Dirname(p)
  {
    DirnameEmpty(p);
    var d := Dirname(p);
    if d == "" then "." else d
  }

  /** The common body of `load_cache`, parameterised by the directory whose
      writability decides a missing file. `rows` is what the file holds
      when it exists. */
  function LoadFrom(fs: Fs, cachePath: string, rows: seq<Row>, dir: string): (res: Result<Store, Error>)
    ensures res.Success? ==> Valid(res.value)
  {
    if fs.pathExists(cachePath) then Success(LoadRows(rows))
    else if !Access(fs, dir) then Failure(CannotCreateCacheFile(cachePath))
    else Success(Empty)
  }

  /** `load_cache` as written: it asks whether `os.path.dirname(cache_path)`
      is writable. */
  function LoadCacheAsWritten(fs: Fs, cachePath: string, rows: seq<Row>): (res: Result<Store, Error>)
    ensures res.Success? ==> Valid(res.value)
    ensures fs.pathExists(cachePath) ==> res == Success(LoadRows(rows))
    ensures !fs.pathExists(cachePath) ==>
      (res.Failure? <==> '/' !in cachePath || !fs.writable(Dirname(cachePath)))
      && (res.Failure? ==> res.error == CannotCreateCacheFile(cachePath))
      && (res.Success? ==> res.value == Empty)
  {
    DirnameEmpty(cachePath);
    LoadFrom(fs, cachePath, rows, Dirname(cachePath))
  }

  /** A relative cache file name that does not exist yet is refused even
      when the current directory is writable. */
  lemma RelativeCachePathRefused(fs: Fs, rows: seq<Row>)
    requires !fs.pathExists("dedooper.cache") && fs.writable(".")
    ensures LoadCacheAsWritten(fs, "dedooper.cache", rows) == Failure(CannotCreateCacheFile("dedooper.cache"))
    ensures LoadCache(fs, "dedooper.cache", rows) == Success(Empty)
  {
    var p := "dedooper.cache";
    assert '/' !in p by {
      forall k | 0 <= k < |p| ensures p[k] != '/' {}
    }
    DirnameEmpty(p);
    assert Dirname(p) == "" && ParentDir(p) == ".";
  }

  /** `load_cache`, checking the directory the file would be created in. */
  function LoadCache(fs: Fs, cachePath: string, rows: seq<Row>): (res: Result<Store, Error>)
    ensures res.Success? ==> Valid(res.value)
    ensures fs.pathExists(cachePath) ==> res == Success(LoadRows(rows))
    ensures !fs.pathExists(cachePath) ==>
      (res.Failure? <==> !fs.writable(ParentDir(cachePath)))
      && (res.Failure? ==> res.error == CannotCreateCacheFile(cachePath))
      && (res.Success? ==> res.value == Empty)
  {
    LoadFrom(fs, cachePath, rows, ParentDir(cachePath))
  }

  /** For a cache path with a directory part the two readings agree, so the
      default `~/.dedooper.cache`, once expanded to an absolute path, is
      unaffected. */
  lemma LoadCacheAgrees(fs: Fs, cachePath: string, rows: seq<Row>)
    requires '/' in cachePath
    ensures LoadCacheAsWritten(fs, cachePath, rows) == LoadCache(fs, cachePath, rows)
  {
    DirnameEmpty(cachePath);
  }

  /** Whether `write_cache` can save: it creates `cache_path + ".tmp"` and
      renames it over `cache_path`, both in the directory the cache file
      lives in, which must therefore be writable. */
  predicate CanSave(fs: Fs, cachePath: string)
  {
    fs.writable(ParentDir(cachePath))
  }

  /** A cache that `load_cache` accepted but that cannot be saved was read
      from an existing file: a missing one is only accepted when its
      directory is writable. */
  lemma UnsavableCacheExisted(fs: Fs, cachePath: string, rows: seq<Row>)
    requires LoadCacheAsWritten(fs, cachePath, rows).Success? || LoadCache(fs, cachePath, rows).Success?
    requires !CanSave(fs, cachePath)
    ensures fs.pathExists(cachePath)
  {
    DirnameEmpty(cachePath);
  }
}

=== FILE: pipeline.dfy ===
/** The order in which `main` runs the pieces: refuse identical roots, load
    the cache, index the source tree, save the cache, pick a strategy, clean
    up the cleanup tree, save the cache again. Each save happens whether or
    not the scan before it failed (the `finally` clauses); a save that
    fails ends the run with its own error, replacing the scan's. */
module Pipeline {
  import opened Wrappers
  import opened FileSystem
  import opened Errors
  import opened CacheStore
  import opened HashWalk
  import opened SizeIndex
  import opened Cleanup
  import opened LinkActions
  import opened Persistence

  /** How a run ends: the error it exits with, if any; the caches
      `write_cache` saved, in order; and what the callbacks did. */
  datatype RunResult = RunResult(exit: Option<Error>, writes: seq<Store>, effects: seq<Effect>)

  /** `main` after argument parsing. `rows` is what the cache file holds
      when it exists; `reply` is what the user answers at each prompt. Both
      roots are taken as already absolute. The cache is loaded by
      `load_cache` as written. */
  function Run(fs: Fs, opts: Options, source: string, cleanup: string, cachePath: string, rows: seq<Row>, reply: Link -> string): (res: RunResult)
    ensures res.exit.None? ==> |res.writes| == 2
    ensures forall i :: 0 <= i < |res.writes| ==> Valid(res.writes[i])
    ensures res.effects != [] ==> res.exit.None?
    ensures !CanSave(fs, cachePath) ==> res.writes == [] && res.effects == [] && res.exit.Some?
  {
    if fs.realpath(source) == fs.realpath(cleanup) then RunResult(Some(SameRoot(source, cleanup)), [], [])
    else Proceed(fs, opts, source, cleanup, cachePath, LoadCacheAsWritten(fs, cachePath, rows), reply)
  }

  /** `main` with the corrected `load_cache`, which checks the directory a
      missing cache file would be created in. */
  function RunCorrected(fs: Fs, opts: Options, source: string, cleanup: string, cachePath: string, rows: seq<Row>, reply: Link -> string): (res: RunResult)
    ensures res.exit.None? ==> |res.writes| == 2
    ensures forall i :: 0 <= i < |res.writes| ==> Valid(res.writes[i])
    ensures res.effects != [] ==> res.exit.None?
    ensures !CanSave(fs, cachePath) ==> res.writes == [] && res.effects == [] && res.exit.Some?
  {
    if fs.realpath(source) == fs.realpath(cleanup) then RunResult(Some(SameRoot(source, cleanup)), [], [])
    else Proceed(fs, opts, source, cleanup, cachePath, LoadCache(fs, cachePath, rows), reply)
  }

  /** Everything after the roots were found distinct, given the outcome of
      loading the cache. The first save decides whether the run goes on:
      when it fails, its error leaves `main` even if the source scan had
      already failed, and the cleanup tree is never looked at. The
      filesystem does not change during a run, so the second save succeeds
      whenever the first did. */
  function Proceed(fs: Fs, opts: Options, source: string, cleanup: string, cachePath: string, loaded: Result<Store, Error>, reply: Link -> string): (res: RunResult)
    requires loaded.Success? ==> Valid(loaded.value)
    ensures res.exit.None? ==> |res.writes| == 2
    ensures forall i :: 0 <= i < |res.writes| ==> Valid(res.writes[i])
    ensures res.effects != [] ==> res.exit.None?
    ensures loaded.Success? && !CanSave(fs, cachePath) ==> res == RunResult(Some(CannotWriteCacheFile(cachePath)), [], [])
  {
    match loaded
    case Failure(e) => RunResult(Some(e), [], [])
    case Success(s0) =>
      var scan := GetTreeFilesizes(fs, source, s0, opts.minFilesize, opts.showSourceDupes);
      if !CanSave(fs, cachePath) then RunResult(Some(CannotWriteCacheFile(cachePath)), [], [])
      else
      match scan
      case Failure(e) => RunResult(Some(e), [s0], [])
      case Success(ix) =>
        var s1 := ix.store;
        match CleanupTree(fs, cleanup, ix.sizes, s1)
        case Failure(e) => RunResult(Some(e), [s1, s1], [])
        case Success(c) => RunResult(None, [s1, c.store], Effects(SelectStrategy(opts), reply, c.links))
  }

  /** The links a run made on disk. */
  function LinksMade(res: RunResult): seq<Link>
  {
    LinkActions.Made(res.effects)
  }

  /** Identical roots, or a cache that cannot be created, stop the run
      before anything is scanned or saved; a bad source root stops it after
      saving the cache exactly as it was loaded. A missing cache file named
      without a directory part always stops the run. An existing cache file
      in a directory that is not writable is loaded, but the first save
      fails, so nothing is saved and the cleanup tree is never scanned. */
  lemma {:induction false} RunStopsEarly(fs: Fs, opts: Options, source: string, cleanup: string, cachePath: string, rows: seq<Row>, reply: Link -> string)
    ensures var res := Run(fs, opts, source, cleanup, cachePath, rows, reply);
      && (fs.realpath(source) == fs.realpath(cleanup) ==> res == RunResult(Some(SameRoot(source, cleanup)), [], []))
      && (fs.realpath(source) != fs.realpath(cleanup) && LoadCacheAsWritten(fs, cachePath, rows).Failure? ==>
            res == RunResult(Some(CannotCreateCacheFile(cachePath)), [], []))
      && (fs.realpath(source) != fs.realpath(cleanup) && !fs.pathExists(cachePath) && '/' !in cachePath ==>
            res == RunResult(Some(CannotCreateCacheFile(cachePath)), [], []))
      && (fs.realpath(source) != fs.realpath(cleanup) && fs.pathExists(cachePath) && !CanSave(fs, cachePath) ==>
            res == RunResult(Some(CannotWriteCacheFile(cachePath)), [], []))
      && (fs.realpath(source) != fs.realpath(cleanup) && LoadCacheAsWritten(fs, cachePath, rows).Success? && CanSave(fs, cachePath) && CheckRoot(fs, source).Some? ==>
            res == RunResult(CheckRoot(fs, source), [LoadCacheAsWritten(fs, cachePath, rows).value], []))
  {
  }

  /** With a directory part in the cache path the corrected run is the
      run as written. */
  lemma RunCorrectedAgrees(fs: Fs, opts: Options, source: string, cleanup: string, cachePath: string, rows: seq<Row>, reply: Link -> string)
    requires '/' in cachePath
    ensures RunCorrected(fs, opts, source, cleanup, cachePath, rows, reply) == Run(fs, opts, source, cleanup, cachePath, rows, reply)
  {
    LoadCacheAgrees(fs, cachePath, rows);
  }

  /** `--cache_file dedooper.cache`, absent, in a writable working directory,
      with distinct roots: the run as written exits before scanning or
      saving, the corrected run scans the source tree from an empty cache
      and saves at least once. */
  lemma RunBareCacheName(fs: Fs, opts: Options, source: string, cleanup: string, rows: seq<Row>, reply: Link -> string)
    requires !fs.pathExists("dedooper.cache") && fs.writable(".")
    requires fs.realpath(source) != fs.realpath(cleanup)
    ensures Run(fs, opts, source, cleanup, "dedooper.cache", rows, reply) == RunResult(Some(CannotCreateCacheFile("dedooper.cache")), [], [])
    ensures var res := RunCorrected(fs, opts, source, cleanup, "dedooper.cache", rows, reply);
      && res.exit != Some(CannotCreateCacheFile("dedooper.cache")) && |res.writes| >= 1
      && (CheckRoot(fs, source).Some? ==> res == RunResult(CheckRoot(fs, source), [Empty], []))
  {
    RelativeCachePathRefused(fs, rows);
  }

  /** Every cache a run saves passes `write_cache`'s key check, in any
      iteration order. */
  lemma RunWritesSucceed(fs: Fs, opts: Options, source: string, cleanup: string, cachePath: string, rows: seq<Row>, reply: Link -> string, i: nat, order: seq<string>)
    requires var res := Run(fs, opts, source, cleanup, cachePath, rows, reply);
      i < |res.writes| && Enumerates(res.writes[i], order)
    ensures var w := Run(fs, opts, source, cleanup, cachePath, rows, reply).writes[i];
      RefsIn(w) && WriteCache(w, order).Success?
  {
  }

  /** With the default flags (dry run) a run never replaces a file by a
      link: at most it prints the commands. */
  lemma RunDefaultsNeverLink(fs: Fs, source: string, cleanup: string, cachePath: string, rows: seq<Row>, reply: Link -> string)
    ensures LinksMade(Run(fs, Defaults, source, cleanup, cachePath, rows, reply)) == []
  {
    var res := Run(fs, Defaults, source, cleanup, cachePath, rows, reply);
    if res.effects != [] {
      var s0 := LoadCacheAsWritten(fs, cachePath, rows).value;
      var ix := GetTreeFilesizes(fs, source, s0, Defaults.minFilesize, Defaults.showSourceDupes).value;
      var c := CleanupTree(fs, cleanup, ix.sizes, ix.store).value;
      MadeOf(PrintCommand, reply, c.links);
    }
  }

  /** Whatever the flags and answers, a link made on disk replaces a file of
      the cleanup tree by a link to a different file of the source index. */
  lemma RunNeverSelfLinks(fs: Fs, opts: Options, source: string, cleanup: string, cachePath: string, rows: seq<Row>, reply: Link -> string, l: Link)
    requires l in LinksMade(Run(fs, opts, source, cleanup, cachePath, rows, reply))
    ensures fs.realpath(l.source) != fs.realpath(l.target)
    ensures l.target in fs.walk(cleanup) && !fs.isLink(l.target)
  {
    var res := Run(fs, opts, source, cleanup, cachePath, rows, reply);
    var s0 := LoadCacheAsWritten(fs, cachePath, rows).value;
    var ix := GetTreeFilesizes(fs, source, s0, opts.minFilesize, opts.showSourceDupes).value;
    var c := CleanupTree(fs, cleanup, ix.sizes, ix.store).value;
    assert res.effects == Effects(SelectStrategy(opts), reply, c.links);
    StrategyMadeFromLinks(SelectStrategy(opts), reply, c.links, l);
    CleanupLinkFacts(fs, cleanup, ix.sizes, ix.store, l);
  }
}

=== FILE: size_index.dfy ===
/** `get_tree_filesizes`: scan the source tree into a size index, a map from
    byte size to the records of that size in scan order, optionally reporting
    files of the source tree that share size and checksum. */
module SizeIndex {
  import opened Wrappers
  import opened FileSystem
  import opened Errors
  import opened CacheItems
  import opened CacheStore
  import opened HashWalk

  type Buckets = map<int, seq<Ref>>

  function Bucket(sizes: Buckets, k: int): seq<Ref>
  {
    if k in sizes then sizes[k] else []
  }

  /** The files of a walk (symbolic links excluded) whose stat size is `k`,
      in walk order. */
  function SizedFiles(fs: Fs, entries: seq<string>, k: int): seq<string>
  {
    if entries == [] then []
    else
      var e := entries[0];
      (if !fs.isLink(e) && fs.stat(e).size == k then [e] else []) + SizedFiles(fs, entries[1..], k)
  }

  /** The files of a walk at or above the size threshold, in walk order. */
  function LargeFiles(fs: Fs, entries: seq<string>, minSize: int): seq<string>
  {
    if entries == [] then []
    else
      var e := entries[0];
      (if !fs.isLink(e) && fs.stat(e).size >= minSize then [e] else []) + LargeFiles(fs, entries[1..], minSize)
  }

  /** An intra-tree collision report `(item, other)`: two records of the same
      size bucket whose checksums agree. */
  predicate IsCollision(fs: Fs, heap: seq<CacheItem>, d: (Ref, Ref))
  {
    && d.0 < |heap| && d.1 < |heap|
    && heap[d.0].size.Some? && heap[d.0].size == heap[d.1].size
    && Digest(fs, heap[d.0]) == Digest(fs, heap[d.1])
  }

  /** The state threaded through the scan: the store, the buckets, the
      `num_items` counter and the collisions reported so far. */
  datatype IndexState = IndexState(store: Store, sizes: Buckets, numItems: nat, dupes: seq<(Ref, Ref)>)

  /** Every record in bucket `k` is in the store, has known size `k`, and
      `k` is at or above the threshold; every report is a real collision. */
  predicate Inv(fs: Fs, st: IndexState, minSize: int)
  {
    && Valid(st.store)
    && (forall k :: k in st.sizes ==> k >= minSize && AllIn(st.sizes[k], |st.store.heap|))
    && (forall k, i :: k in st.sizes && 0 <= i < |st.sizes[k]| ==> st.store.heap[st.sizes[k][i]].size == Some(k))
    && (forall i :: 0 <= i < |st.dupes| ==> IsCollision(fs, st.store.heap, st.dupes[i]))
  }

  lemma InvEvolves(fs: Fs, st: IndexState, s': Store, minSize: int)
    requires Inv(fs, st, minSize) && Valid(s') && Evolves(fs, st.store.heap, s'.heap)
    ensures Inv(fs, st.(store := s'), minSize)
  {
    var h, h' := st.store.heap, s'.heap;
    forall k, i | k in st.sizes && 0 <= i < |st.sizes[k]|
      ensures h'[st.sizes[k][i]].size == Some(k)
    {
      assert Refines(fs, h[st.sizes[k][i]], h'[st.sizes[k][i]]);
    }
    forall i | 0 <= i < |st.dupes|
      ensures IsCollision(fs, h', st.dupes[i])
    {
      var d := st.dupes[i];
      assert Refines(fs, h[d.0], h'[d.0]) && Refines(fs, h[d.1], h'[d.1]);
    }
  }

  /** Reference definition of the collisions reported for `item` against a
      bucket: every earlier record whose checksum equals the item's, in
      bucket order. */
  function Collisions(fs: Fs, heap: seq<CacheItem>, item: Ref, others: seq<Ref>): (c: seq<(Ref, Ref)>)
    requires item < |heap| && AllIn(others, |heap|)
    ensures forall d :: d in c ==> d.0 == item && d.1 in others && Digest(fs, heap[d.1]) == Digest(fs, heap[item])
    ensures forall o :: o in others && Digest(fs, heap[o]) == Digest(fs, heap[item]) ==> (item, o) in c
  {
    if others == [] then []
    else
      (if Digest(fs, heap[others[0]]) == Digest(fs, heap[item]) then [(item, others[0])] else [])
      + Collisions(fs, heap, item, others[1..])
  }

  lemma {:induction false} CollisionsEvolve(fs: Fs, h0: seq<CacheItem>, h1: seq<CacheItem>, item: Ref, others: seq<Ref>)
    requires item < |h0| && AllIn(others, |h0|) && Evolves(fs, h0, h1)
    ensures Collisions(fs, h1, item, others) == Collisions(fs, h0, item, others)
    decreases |others|
  {
    if others != [] {
      assert Refines(fs, h0[item], h1[item]) && Refines(fs, h0[others[0]], h1[others[0]]);
      CollisionsEvolve(fs, h0, h1, item, others[1..]);
    }
  }

  /** The inner `for other in sizes[...]` loop with `show_source_dupes`:
      both checksums are read through the accessor (item first), so they are
      computed and memoised as a side effect. */
  function ReportDupes(fs: Fs, s: Store, item: Ref, others: seq<Ref>): (res: (Store, seq<(Ref, Ref)>))
    requires Valid(s) && item < |s.heap| && AllIn(others, |s.heap|)
    ensures Valid(res.0) && res.0.cache == s.cache
    ensures Evolves(fs, s.heap, res.0.heap)
    ensures forall x :: 0 <= x < |s.heap| && x != item && x !in others ==> res.0.heap[x] == s.heap[x]
    ensures OnlyChecksums(s.heap, res.0.heap)
    ensures res.1 == Collisions(fs, s.heap, item, others)
    decreases |others|
  {
    if others == [] then (s, [])
    else
      var (mine, theirs, s2) := ChecksumPair(fs, s, item, others[0]);
      var (s3, rest) := ReportDupes(fs, s2, item, others[1..]);
      EvolvesTransitive(fs, s.heap, s2.heap, s3.heap);
      OnlyChecksumsTransitive(s.heap, s2.heap, s3.heap);
      CollisionsEvolve(fs, s.heap, s2.heap, item, others[1..]);
      (s3, (if mine == theirs then [(item, others[0])] else []) + rest)
  }

  /** Appending record `item` of size `sz` (at or above the threshold) to its
      bucket, after reporting its collisions when `showDupes` is set. */
  function Admit(fs: Fs, st: IndexState, item: Ref, sz: int, minSize: int, showDupes: bool): (st': IndexState)
    requires Inv(fs, st, minSize) && sz >= minSize
    requires item < |st.store.heap| && st.store.heap[item].size == Some(sz)
    ensures Inv(fs, st', minSize)
    ensures Evolves(fs, st.store.heap, st'.store.heap)
    ensures st'.store.cache == st.store.cache && |st'.store.heap| == |st.store.heap|
    ensures st'.sizes == st.sizes[sz := Bucket(st.sizes, sz) + [item]] && st'.numItems == st.numItems + 1
    ensures forall x :: 0 <= x < |st.store.heap| && x != item && x !in Bucket(st.sizes, sz) ==> st'.store.heap[x] == st.store.heap[x]
    ensures !showDupes ==> st'.store == st.store
    ensures forall x :: 0 <= x < |st.store.heap| ==> st'.store.heap[x].size == st.store.heap[x].size && st'.store.heap[x].mtime == st.store.heap[x].mtime
  {
    var s := st.store;
    var (s', found) := if showDupes && sz in st.sizes then ReportDupes(fs, s, item, st.sizes[sz]) else (s, []);
    EvolvesReflexive(fs, s.heap);
    InvEvolves(fs, st, s', minSize);
    FoundAreCollisions(fs, st, item, sz, minSize, s', found);
    InvAdmit(fs, st.(store := s'), item, sz, minSize, found);
    IndexState(s', st.sizes[sz := Bucket(st.sizes, sz) + [item]], st.numItems + 1, st.dupes + found)
  }

  lemma InvAdmit(fs: Fs, st: IndexState, item: Ref, sz: int, minSize: int, found: seq<(Ref, Ref)>)
    requires Inv(fs, st, minSize) && sz >= minSize
    requires item < |st.store.heap| && st.store.heap[item].size == Some(sz)
    requires forall i :: 0 <= i < |found| ==> IsCollision(fs, st.store.heap, found[i])
    ensures Inv(fs, IndexState(st.store, st.sizes[sz := Bucket(st.sizes, sz) + [item]], st.numItems + 1, st.dupes + found), minSize)
  {
    var sizes' := st.sizes[sz := Bucket(st.sizes, sz) + [item]];
    forall k, i | k in sizes' && 0 <= i < |sizes'[k]|
      ensures sizes'[k][i] < |st.store.heap| && st.store.heap[sizes'[k][i]].size == Some(k)
    {
      if k == sz && i < |Bucket(st.sizes, sz)| {
        assert sizes'[k][i] == st.sizes[sz][i];
      }
    }
    var dupes' := st.dupes + found;
    forall i | 0 <= i < |dupes'| ensures IsCollision(fs, st.store.heap, dupes'[i]) {
      if i >= |st.dupes| {
        assert dupes'[i] == found[i - |st.dupes|];
      }
    }
  }

  lemma FoundAreCollisions(fs: Fs, st: IndexState, item: Ref, sz: int, minSize: int, s': Store, found: seq<(Ref, Ref)>)
    requires Inv(fs, st, minSize) && item < |st.store.heap| && st.store.heap[item].size == Some(sz)
    requires Evolves(fs, st.store.heap, s'.heap)
    requires found == [] || (sz in st.sizes && found == Collisions(fs, st.store.heap, item, st.sizes[sz]))
    ensures forall i :: 0 <= i < |found| ==> IsCollision(fs, s'.heap, found[i])
  {
    var h, h' := st.store.heap, s'.heap;
    forall i | 0 <= i < |found| ensures IsCollision(fs, h', found[i]) {
      var o := found[i].1;
      assert found[i] in found;
      assert o in st.sizes[sz];
      var j :| 0 <= j < |st.sizes[sz]| && st.sizes[sz][j] == o;
      assert h[o].size == Some(sz);
      assert Refines(fs, h[o], h'[o]) && Refines(fs, h[item], h'[item]);
    }
  }

  /** What the loop body does with a yielded record: read its size, skip it
      below the threshold, admit it otherwise. */
  function Consume(fs: Fs, st: IndexState, item: Ref, minSize: int, showDupes: bool): (st': IndexState)
    requires Inv(fs, st, minSize) && item < |st.store.heap|
    ensures Inv(fs, st', minSize)
    ensures Evolves(fs, st.store.heap, st'.store.heap)
    ensures st'.store.cache == st.store.cache && |st'.store.heap| == |st.store.heap|
    ensures var sz := SizeValue(fs, st.store.heap[item]);
      && (sz < minSize ==> st'.sizes == st.sizes && st'.numItems == st.numItems)
      && (sz >= minSize ==> st'.sizes == st.sizes[sz := Bucket(st.sizes, sz) + [item]] && st'.numItems == st.numItems + 1)
    ensures var sz := SizeValue(fs, st.store.heap[item]);
      forall x :: 0 <= x < |st.store.heap| && x != item && (sz < minSize || x !in Bucket(st.sizes, sz)) ==> st'.store.heap[x].checksum == st.store.heap[x].checksum
    ensures !showDupes ==> st'.store.heap[item].checksum == st.store.heap[item].checksum
    ensures SizeValue(fs, st.store.heap[item]) < minSize ==> st'.store.heap[item].checksum == st.store.heap[item].checksum
    ensures !showDupes ==> forall x :: 0 <= x < |st.store.heap| ==> st'.store.heap[x].checksum == st.store.heap[x].checksum
    ensures StatKeptExcept(st.store.heap, st'.store.heap, st.store.heap[item].abspath)
  {
    var (sz, s1) := SizeAt(fs, st.store, item);
    InvEvolves(fs, st, s1, minSize);
    if sz < minSize then st.(store := s1)
    else
      var st' := Admit(fs, st.(store := s1), item, sz, minSize, showDupes);
      EvolvesTransitive(fs, st.store.heap, s1.heap, st'.store.heap);
      st'
  }

  /** One iteration of the scan loop: the walk step, then the consumer. */
  function IndexStep(fs: Fs, st: IndexState, path: string, minSize: int, showDupes: bool): (st': IndexState)
    requires Inv(fs, st, minSize)
    ensures Inv(fs, st', minSize)
    ensures Evolves(fs, st.store.heap, st'.store.heap)
  {
    var (y, s1) := WalkStep(fs, st.store, path);
    assert Evolves(fs, st.store.heap, s1.heap) by {
      EvolvesReflexive(fs, st.store.heap);
    }
    InvEvolves(fs, st, s1, minSize);
    if y.None? then st.(store := s1)
    else
      var st' := Consume(fs, st.(store := s1), y.value, minSize, showDupes);
      EvolvesTransitive(fs, st.store.heap, s1.heap, st'.store.heap);
      st'
  }

  /** The scan loop over a walk. */
  function IndexEntries(fs: Fs, st: IndexState, entries: seq<string>, minSize: int, showDupes: bool): (st': IndexState)
    requires Inv(fs, st, minSize)
    ensures Inv(fs, st', minSize)
    ensures Evolves(fs, st.store.heap, st'.store.heap)
    decreases |entries|
  {
    if entries == [] then
      EvolvesReflexive(fs, st.store.heap);
      st
    else
      var st1 := IndexStep(fs, st, entries[0], minSize, showDupes);
      var st2 := IndexEntries(fs, st1, entries[1..], minSize, showDupes);
      EvolvesTransitive(fs, st.store.heap, st1.store.heap, st2.store.heap);
      st2
  }

  /** `get_tree_filesizes(root, cache, min_filesize, show_source_dupes)`:
      `BadRoot` before anything else, otherwise the finished scan. */
  function GetTreeFilesizes(fs: Fs, root: string, s: Store, minSize: int, showDupes: bool): (res: Result<IndexState, Error>)
    requires Valid(s)
    ensures res.Failure? <==> CheckRoot(fs, root).Some?
    ensures res.Failure? ==> res.error == CheckRoot(fs, root).value
    ensures res.Success? ==> Inv(fs, res.value, minSize) && Evolves(fs, s.heap, res.value.store.heap)
  {
    match CheckRoot(fs, root)
    case Some(e) => Failure(e)
    case None => Success(IndexEntries(fs, IndexState(s, map[], 0, []), fs.walk(root), minSize, showDupes))
  }

  /** The records of the buckets, as a set of refs. */
  ghost predicate Bucketed(sizes: Buckets, r: Ref)
  {
    exists k :: k in sizes && r in sizes[k]
  }

  /** What one loop iteration does to the buckets and the counter. */
  lemma IndexStepEffect(fs: Fs, st: IndexState, path: string, minSize: int, showDupes: bool)
    requires Inv(fs, st, minSize)
    ensures var st' := IndexStep(fs, st, path, minSize, showDupes);
      && (fs.isLink(path) || fs.stat(path).size < minSize ==> st'.sizes == st.sizes && st'.numItems == st.numItems)
      && (!fs.isLink(path) && fs.stat(path).size >= minSize ==>
            var r := WalkStep(fs, st.store, path).0.value;
            var sz := fs.stat(path).size;
            && r < |st'.store.heap| && st'.store.heap[r].abspath == path
            && st'.sizes == st.sizes[sz := Bucket(st.sizes, sz) + [r]] && st'.numItems == st.numItems + 1)
  {
    var (y, s1) := WalkStep(fs, st.store, path);
    if y.Some? {
      EvolvesReflexive(fs, st.store.heap);
      InvEvolves(fs, st, s1, minSize);
      var st' := Consume(fs, st.(store := s1), y.value, minSize, showDupes);
      assert IndexStep(fs, st, path, minSize, showDupes) == st';
      assert Refines(fs, s1.heap[y.value], st'.store.heap[y.value]);
    }
  }

  /** Buckets only grow: one loop iteration keeps every bucket as a prefix. */
  lemma IndexStepGrows(fs: Fs, st: IndexState, path: string, minSize: int, showDupes: bool)
    requires Inv(fs, st, minSize)
    ensures var st' := IndexStep(fs, st, path, minSize, showDupes);
      forall k :: k in st.sizes ==> k in st'.sizes && st.sizes[k] <= st'.sizes[k]
  {
    IndexStepEffect(fs, st, path, minSize, showDupes);
  }

  /** One loop iteration computes no checksum except for the record it
      appends to a bucket and the records already in that bucket, and none at
      all without `showDupes`. */
  lemma IndexStepChecksums(fs: Fs, st: IndexState, path: string, minSize: int, showDupes: bool)
    requires Inv(fs, st, minSize)
    ensures var st' := IndexStep(fs, st, path, minSize, showDupes);
      forall x :: 0 <= x < |st'.store.heap| && (!showDupes || !Bucketed(st'.sizes, x)) ==> ChecksumKept(st.store.heap, st'.store.heap, x)
  {
    var (y, s1) := WalkStep(fs, st.store, path);
    var st' := IndexStep(fs, st, path, minSize, showDupes);
    IndexStepEffect(fs, st, path, minSize, showDupes);
    if y.Some? {
      var r := y.value;
      EvolvesReflexive(fs, st.store.heap);
      InvEvolves(fs, st, s1, minSize);
      assert st' == Consume(fs, st.(store := s1), r, minSize, showDupes);
      var sz := SizeValue(fs, s1.heap[r]);
      forall x | 0 <= x < |st'.store.heap| && (!showDupes || !Bucketed(st'.sizes, x))
        ensures ChecksumKept(st.store.heap, st'.store.heap, x)
      {
        if showDupes && sz >= minSize {
          assert sz in st'.sizes && st'.sizes[sz] == Bucket(st.sizes, sz) + [r];
          assert r in st'.sizes[sz];
          assert x != r;
          assert x !in Bucket(st.sizes, sz);
        }
      }
    }
  }

  /** The total number of records over all buckets. */
  ghost function BucketTotal(sizes: Buckets): nat
  {
    SumOver(sizes, sizes.Keys)
  }

  ghost function SumOver(sizes: Buckets, ks: set<int>): nat
    requires ks <= sizes.Keys
    decreases ks
  {
    if ks == {} then 0
    else
      assert exists k :: k in ks by {
        NonEmptyHasElement(ks);
      }
      var k :| k in ks;
      |sizes[k]| + SumOver(sizes, ks - {k})
  }

  lemma NonEmptyHasElement(ks: set<int>)
    requires ks != {}
    ensures exists k :: k in ks
  {
    if forall k :: k !in ks {
      assert false;
    }
  }

  lemma {:induction false} SumOverRemove(sizes: Buckets, ks: set<int>, k: int)
    requires ks <= sizes.Keys && k in ks
    ensures SumOver(sizes, ks) == |sizes[k]| + SumOver(sizes, ks - {k})
    decreases ks
  {
    var j :| j in ks && SumOver(sizes, ks) == |sizes[j]| + SumOver(sizes, ks - {j});
    if j != k {
      SumOverRemove(sizes, ks - {j}, k);
      SumOverRemove(sizes, ks - {k}, j);
      assert ks - {j} - {k} == ks - {k} - {j};
    }
  }

  lemma {:induction false} SumOverAgree(m1: Buckets, m2: Buckets, ks: set<int>)
    requires ks <= m1.Keys && ks <= m2.Keys
    requires forall k :: k in ks ==> |m1[k]| == |m2[k]|
    ensures SumOver(m1, ks) == SumOver(m2, ks)
    decreases ks
  {
    if ks != {} {
      NonEmptyHasElement(ks);
      var k :| k in ks;
      SumOverRemove(m1, ks, k);
      SumOverRemove(m2, ks, k);
      SumOverAgree(m1, m2, ks - {k});
    }
  }

  /** Appending one record to one bucket adds one to the total. */
  lemma BucketTotalAppend(sizes: Buckets, k: int, r: Ref)
    ensures BucketTotal(sizes[k := Bucket(sizes, k) + [r]]) == BucketTotal(sizes) + 1
  {
    var sizes' := sizes[k := Bucket(sizes, k) + [r]];
    SumOverRemove(sizes', sizes'.Keys, k);
    assert sizes'.Keys - {k} <= sizes.Keys;
    SumOverAgree(sizes', sizes, sizes'.Keys - {k});
    if k in sizes {
      SumOverRemove(sizes, sizes.Keys, k);
      assert sizes'.Keys - {k} == sizes.Keys - {k};
    } else {
      assert sizes'.Keys - {k} == sizes.Keys;
    }
  }

  lemma PathsAppend(heap: seq<CacheItem>, refs: seq<Ref>, r: Ref)
    requires AllIn(refs, |heap|) && r < |heap|
    ensures AllIn(refs + [r], |heap|)
    ensures Paths(heap, refs + [r]) == Paths(heap, refs) + [heap[r].abspath]
  {
  }

  /** One loop iteration, seen from bucket `k`: the bucket's paths gain the
      entry exactly when it is a file of size `k` at or above the threshold. */
  lemma IndexStepBuckets(fs: Fs, st: IndexState, path: string, minSize: int, showDupes: bool, k: int)
    requires Inv(fs, st, minSize)
    ensures var st' := IndexStep(fs, st, path, minSize, showDupes);
      && (k in st'.sizes <==> k in st.sizes || (k >= minSize && !fs.isLink(path) && fs.stat(path).size == k))
      && Paths(st'.store.heap, Bucket(st'.sizes, k))
         == Paths(st.store.heap, Bucket(st.sizes, k))
            + (if k >= minSize && !fs.isLink(path) && fs.stat(path).size == k then [path] else [])
  {
    var st' := IndexStep(fs, st, path, minSize, showDupes);
    IndexStepEffect(fs, st, path, minSize, showDupes);
    EvolvesKeepsPaths(fs, st.store.heap, st'.store.heap, Bucket(st.sizes, k));
    if k >= minSize && !fs.isLink(path) && fs.stat(path).size == k {
      var r := WalkStep(fs, st.store, path).0.value;
      PathsAppend(st'.store.heap, Bucket(st.sizes, k), r);
    }
  }

  /** Bucket `k` of `after` is bucket `k` of `before` followed by the files
      of `entries` of size `k`, when `k` is at or above the threshold. */
  ghost predicate BucketExtends(fs: Fs, before: IndexState, after: IndexState, entries: seq<string>, minSize: int, k: int)
    requires AllIn(Bucket(before.sizes, k), |before.store.heap|) && AllIn(Bucket(after.sizes, k), |after.store.heap|)
  {
    && (k in after.sizes <==> k in before.sizes || (k >= minSize && SizedFiles(fs, entries, k) != []))
    && Paths(after.store.heap, Bucket(after.sizes, k))
       == Paths(before.store.heap, Bucket(before.sizes, k)) + (if k >= minSize then SizedFiles(fs, entries, k) else [])
  }

  /** The buckets after a scan: bucket `k` exists exactly when some file of
      the walk has size `k >= minSize`, and holds those files, each once, in
      walk order, after whatever it held before. */
  lemma {:induction false} IndexBuckets(fs: Fs, st: IndexState, entries: seq<string>, minSize: int, showDupes: bool, k: int)
    requires Inv(fs, st, minSize)
    ensures BucketExtends(fs, st, IndexEntries(fs, st, entries, minSize, showDupes), entries, minSize, k)
    decreases |entries|
  {
    var st' := IndexEntries(fs, st, entries, minSize, showDupes);
    if entries == [] {
      assert st' == st;
    } else {
      var e0, rest := entries[0], entries[1..];
      var st1 := IndexStep(fs, st, e0, minSize, showDupes);
      assert st' == IndexEntries(fs, st1, rest, minSize, showDupes);
      IndexBuckets(fs, st1, rest, minSize, showDupes, k);
      IndexStepBuckets(fs, st, e0, minSize, showDupes, k);
      var head := if !fs.isLink(e0) && fs.stat(e0).size == k then [e0] else [];
      assert SizedFiles(fs, entries, k) == head + SizedFiles(fs, rest, k);
      if k >= minSize {
        ConcatChain(Paths(st.store.heap, Bucket(st.sizes, k)), Paths(st1.store.heap, Bucket(st1.sizes, k)),
                    Paths(st'.store.heap, Bucket(st'.sizes, k)), head, SizedFiles(fs, rest, k));
      }
    }
  }

  lemma ConcatChain<T>(p0: seq<T>, p1: seq<T>, p2: seq<T>, h: seq<T>, t: seq<T>)
    requires p1 == p0 + h && p2 == p1 + t
    ensures p2 == p0 + (h + t)
  {
  }

  /** `num_items` counts the files at or above the threshold, and equals
      the number of records over all buckets. */
  lemma {:induction false} IndexCount(fs: Fs, st: IndexState, entries: seq<string>, minSize: int, showDupes: bool)
    requires Inv(fs, st, minSize)
    ensures var st' := IndexEntries(fs, st, entries, minSize, showDupes);
      && st'.numItems == st.numItems + |LargeFiles(fs, entries, minSize)|
      && BucketTotal(st'.sizes) == BucketTotal(st.sizes) + |LargeFiles(fs, entries, minSize)|
    decreases |entries|
  {
    if entries != [] {
      var e0, rest := entries[0], entries[1..];
      var st1 := IndexStep(fs, st, e0, minSize, showDupes);
      assert IndexEntries(fs, st, entries, minSize, showDupes) == IndexEntries(fs, st1, rest, minSize, showDupes);
      IndexCount(fs, st1, rest, minSize, showDupes);
      IndexStepEffect(fs, st, e0, minSize, showDupes);
      if !fs.isLink(e0) && fs.stat(e0).size >= minSize {
        BucketTotalAppend(st.sizes, fs.stat(e0).size, WalkStep(fs, st.store, e0).0.value);
      }
    }
  }

  /** Buckets only grow over a scan. */
  lemma {:induction false} IndexGrows(fs: Fs, st: IndexState, entries: seq<string>, minSize: int, showDupes: bool)
    requires Inv(fs, st, minSize)
    ensures var st' := IndexEntries(fs, st, entries, minSize, showDupes);
      forall k :: k in st.sizes ==> k in st'.sizes && st.sizes[k] <= st'.sizes[k]
    decreases |entries|
  {
    if entries != [] {
      var st1 := IndexStep(fs, st, entries[0], minSize, showDupes);
      IndexStepGrows(fs, st, entries[0], minSize, showDupes);
      IndexGrows(fs, st1, entries[1..], minSize, showDupes);
    }
  }

  lemma BucketedGrows(s1: Buckets, s2: Buckets, x: Ref)
    requires forall k :: k in s1 ==> k in s2 && s1[k] <= s2[k]
    ensures Bucketed(s1, x) ==> Bucketed(s2, x)
  {
    if Bucketed(s1, x) {
      var k :| k in s1 && x in s1[k];
      assert s1[k] <= s2[k];
      var i :| 0 <= i < |s1[k]| && s1[k][i] == x;
      assert s2[k][i] == x;
    }
  }

  /** A scan computes no checksum for a record it leaves out of every bucket
      (files below the threshold in particular), and none at all without
      `showDupes`. */
  lemma {:induction false} IndexChecksums(fs: Fs, st: IndexState, entries: seq<string>, minSize: int, showDupes: bool)
    requires Inv(fs, st, minSize)
    ensures var st' := IndexEntries(fs, st, entries, minSize, showDupes);
      forall x :: 0 <= x < |st'.store.heap| && (!showDupes || !Bucketed(st'.sizes, x))
        ==> ChecksumKept(st.store.heap, st'.store.heap, x)
    decreases |entries|
  {
    if entries != [] {
      var e0, rest := entries[0], entries[1..];
      var st1 := IndexStep(fs, st, e0, minSize, showDupes);
      var st2 := IndexEntries(fs, st1, rest, minSize, showDupes);
      assert IndexEntries(fs, st, entries, minSize, showDupes) == st2;
      IndexStepChecksums(fs, st, e0, minSize, showDupes);
      IndexChecksums(fs, st1, rest, minSize, showDupes);
      IndexGrows(fs, st1, rest, minSize, showDupes);
      forall x | 0 <= x < |st2.store.heap| && (!showDupes || !Bucketed(st2.sizes, x))
        ensures ChecksumKept(st.store.heap, st2.store.heap, x)
      {
        BucketedGrows(st1.sizes, st2.sizes, x);
        if x < |st1.store.heap| {
          ChecksumKeptTransitive(st.store.heap, st1.store.heap, st2.store.heap, x);
        }
      }
    }
  }

  /** One loop iteration obeys the cache rule for its entry and changes stat
      fields only on records of that entry. */
  lemma IndexStepStore(fs: Fs, st: IndexState, path: string, minSize: int, showDupes: bool)
    requires Inv(fs, st, minSize)
    ensures var st' := IndexStep(fs, st, path, minSize, showDupes);
      CacheRule(fs, st.store, st'.store, [path]) && StatKeptExcept(st.store.heap, st'.store.heap, path)
  {
    var (y, s1) := WalkStep(fs, st.store, path);
    var st' := IndexStep(fs, st, path, minSize, showDupes);
    StepCacheRule(fs, st.store, path);
    if y.Some? {
      EvolvesReflexive(fs, st.store.heap);
      InvEvolves(fs, st, s1, minSize);
      assert st' == Consume(fs, st.(store := s1), y.value, minSize, showDupes);
    }
  }

  /** The cache rule of `hashwalk` holds of the whole source scan. */
  lemma {:induction false} IndexCacheRule(fs: Fs, st: IndexState, entries: seq<string>, minSize: int, showDupes: bool)
    requires Inv(fs, st, minSize)
    ensures CacheRule(fs, st.store, IndexEntries(fs, st, entries, minSize, showDupes).store, entries)
    decreases |entries|
  {
    if entries != [] {
      var e0, rest := entries[0], entries[1..];
      var st1 := IndexStep(fs, st, e0, minSize, showDupes);
      var st2 := IndexEntries(fs, st1, rest, minSize, showDupes);
      assert IndexEntries(fs, st, entries, minSize, showDupes) == st2;
      IndexStepStore(fs, st, e0, minSize, showDupes);
      IndexCacheRule(fs, st1, rest, minSize, showDupes);
      assert entries == [e0] + rest;
      CacheRuleCompose(fs, st.store, st1.store, st2.store, e0, rest);
    }
  }

  /** The contract of `get_tree_filesizes` on a good root: buckets hold
      exactly the files of their size at or above the threshold, in walk
      order; `num_items` counts them; below-threshold and unbucketed records
      get no checksum computed; every reported pair is a real collision; and
      the cache obeys the `hashwalk` rule. */
  lemma GetTreeFilesizesContract(fs: Fs, root: string, s: Store, minSize: int, showDupes: bool)
    requires Valid(s) && CheckRoot(fs, root).None?
    ensures var res := GetTreeFilesizes(fs, root, s, minSize, showDupes);
      var entries := fs.walk(root);
      && res.Success?
      && Inv(fs, res.value, minSize)
      && (forall k :: k in res.value.sizes <==> k >= minSize && SizedFiles(fs, entries, k) != [])
      && (forall k :: k in res.value.sizes ==> Paths(res.value.store.heap, res.value.sizes[k]) == SizedFiles(fs, entries, k))
      && res.value.numItems == |LargeFiles(fs, entries, minSize)| == BucketTotal(res.value.sizes)
      && (forall x :: 0 <= x < |res.value.store.heap| && (!showDupes || !Bucketed(res.value.sizes, x))
            ==> ChecksumKept(s.heap, res.value.store.heap, x))
      && (!showDupes ==> res.value.dupes == [])
      && CacheRule(fs, s, res.value.store, entries)
  {
    var entries := fs.walk(root);
    var st0 := IndexState(s, map[], 0, []);
    var st := IndexEntries(fs, st0, entries, minSize, showDupes);
    assert GetTreeFilesizes(fs, root, s, minSize, showDupes) == Success(st);
    forall k
      ensures k in st.sizes <==> k >= minSize && SizedFiles(fs, entries, k) != []
      ensures k in st.sizes ==> Paths(st.store.heap, st.sizes[k]) == SizedFiles(fs, entries, k)
    {
      IndexBuckets(fs, st0, entries, minSize, showDupes, k);
    }
    IndexCount(fs, st0, entries, minSize, showDupes);
    assert BucketTotal(st0.sizes) == 0;
    IndexChecksums(fs, st0, entries, minSize, showDupes);
    if !showDupes {
      IndexNoDupesWithoutShow(fs, st0, entries, minSize, showDupes);
    }
    IndexCacheRule(fs, st0, entries, minSize, showDupes);
  }

  /** Without `showDupes` no collision is reported. */
  lemma {:induction false} IndexNoDupesWithoutShow(fs: Fs, st: IndexState, entries: seq<string>, minSize: int, showDupes: bool)
    requires Inv(fs, st, minSize) && !showDupes
    ensures IndexEntries(fs, st, entries, minSize, showDupes).dupes == st.dupes
    decreases |entries|
  {
    if entries != [] {
      var st1 := IndexStep(fs, st, entries[0], minSize, showDupes);
      var (y, s1) := WalkStep(fs, st.store, entries[0]);
      if y.Some? {
        EvolvesReflexive(fs, st.store.heap);
        InvEvolves(fs, st, s1, minSize);
        assert st1 == Consume(fs, st.(store := s1), y.value, minSize, showDupes);
      }
      assert st1.dupes == st.dupes;
      IndexNoDupesWithoutShow(fs, st1, entries[1..], minSize, showDupes);
    }
  }
}

=== FILE: store.dfy ===
/** Python object identity made explicit. dedoop's `CacheItem` objects are
    shared: the same object sits in the cache dict, is yielded by `hashwalk`
    and is appended to a size bucket, and filling a lazy field through any
    of these views is seen through all of them. The model keeps every record
    in a store (`heap`) addressed by `Ref`; the cache maps paths to refs. */
module CacheStore {
  import opened Wrappers
  import opened FileSystem
  import opened CacheItems

  type Ref = nat

  datatype Store = Store(heap: seq<CacheItem>, cache: map<string, Ref>)

  const Empty := Store([], map[])

  /** The cache invariant `write_cache` asserts: every key is the path of the
      record it maps to (and every ref names an existing record). */
  predicate Valid(s: Store)
  {
    forall k :: k in s.cache ==> s.cache[k] < |s.heap| && s.heap[s.cache[k]].abspath == k
  }

  predicate AllIn(refs: seq<Ref>, n: nat)
  {
    forall i :: 0 <= i < |refs| ==> refs[i] < n
  }

  /** The paths of a sequence of records. */
  function Paths(heap: seq<CacheItem>, refs: seq<Ref>): (ps: seq<string>)
    requires AllIn(refs, |heap|)
    ensures |ps| == |refs|
    ensures forall i :: 0 <= i < |refs| ==> ps[i] == heap[refs[i]].abspath
  {
    if refs == [] then [] else [heap[refs[0]].abspath] + Paths(heap, refs[1..])
  }

  /** How the store may change while dedoop runs: records are only added,
      and existing ones only have lazy fields filled (`Refines`). */
  predicate Evolves(fs: Fs, h0: seq<CacheItem>, h1: seq<CacheItem>)
  {
    |h0| <= |h1| && forall r :: 0 <= r < |h0| ==> Refines(fs, h0[r], h1[r])
  }

  /** Nothing stored is lost as the store evolves: a stored size and a
      truthy checksum keep their values, and a stored mtime or checksum
      stays stored, so `write_cache` persists at least what it would have
      persisted before. */
  lemma EvolvesKeepsStored(fs: Fs, h0: seq<CacheItem>, h1: seq<CacheItem>, r: nat)
    requires Evolves(fs, h0, h1) && r < |h0|
    ensures h0[r].size.Some? ==> h1[r].size == h0[r].size
    ensures HasChecksum(h0[r]) ==> h1[r].checksum == h0[r].checksum
    ensures h0[r].mtime.Some? ==> h1[r].mtime.Some?
    ensures h0[r].checksum.Some? ==> h1[r].checksum.Some?
  {
    assert Refines(fs, h0[r], h1[r]);
  }

  lemma EvolvesTransitive(fs: Fs, h0: seq<CacheItem>, h1: seq<CacheItem>, h2: seq<CacheItem>)
    requires Evolves(fs, h0, h1) && Evolves(fs, h1, h2)
    ensures Evolves(fs, h0, h2)
  {
  }

  lemma EvolvesReflexive(fs: Fs, h: seq<CacheItem>)
    ensures Evolves(fs, h, h)
  {
  }

  /** The paths of records do not change as the store evolves. */
  lemma EvolvesKeepsPaths(fs: Fs, h0: seq<CacheItem>, h1: seq<CacheItem>, refs: seq<Ref>)
    requires Evolves(fs, h0, h1) && AllIn(refs, |h0|)
    ensures AllIn(refs, |h1|) && Paths(h1, refs) == Paths(h0, refs)
  {
  }

  /** Whether the checksum field of record `r` in `h1` is still what `h0`
      had there (absent for a record created after `h0`). */
  predicate ChecksumKept(h0: seq<CacheItem>, h1: seq<CacheItem>, r: Ref)
    requires r < |h1|
  {
    if r < |h0| then h1[r].checksum == h0[r].checksum else h1[r].checksum.None?
  }

  lemma ChecksumKeptTransitive(h0: seq<CacheItem>, h1: seq<CacheItem>, h2: seq<CacheItem>, r: Ref)
    requires |h0| <= |h1| && r < |h1| <= |h2|
    requires ChecksumKept(h0, h1, r) && ChecksumKept(h1, h2, r)
    ensures ChecksumKept(h0, h2, r)
  {
  }

  /** `item.size` on the shared object `r`. */
  function SizeAt(fs: Fs, s: Store, r: Ref): (res: (int, Store))
    requires r < |s.heap|
    ensures res.0 == SizeValue(fs, s.heap[r])
    ensures res.1.cache == s.cache && |res.1.heap| == |s.heap|
    ensures res.1.heap[r].size == Some(res.0)
    ensures forall x :: 0 <= x < |s.heap| && x != r ==> res.1.heap[x] == s.heap[x]
    ensures res.1.heap[r].checksum == s.heap[r].checksum
    ensures Valid(s) ==> Valid(res.1)
    ensures Evolves(fs, s.heap, res.1.heap)
  {
    AccessorsRefine(fs, s.heap[r]);
    var (v, it) := Size(fs, s.heap[r]);
    (v, s.(heap := s.heap[r := it]))
  }

  /** `item.checksum` on the shared object `r`. */
  function ChecksumAt(fs: Fs, s: Store, r: Ref): (res: (string, Store))
    requires r < |s.heap|
    ensures res.0 == Digest(fs, s.heap[r])
    ensures res.1.cache == s.cache && |res.1.heap| == |s.heap|
    ensures HasChecksum(res.1.heap[r]) || res.0 == ""
    ensures res.1.heap[r] == s.heap[r].(checksum := res.1.heap[r].checksum)
    ensures forall x :: 0 <= x < |s.heap| && x != r ==> res.1.heap[x] == s.heap[x]
    ensures Valid(s) ==> Valid(res.1)
    ensures Evolves(fs, s.heap, res.1.heap)
  {
    AccessorsRefine(fs, s.heap[r]);
    var (v, it) := Checksum(fs, s.heap[r]);
    (v, s.(heap := s.heap[r := it]))
  }

  /** Only checksum fields differ between the two heaps. */
  predicate OnlyChecksums(h0: seq<CacheItem>, h1: seq<CacheItem>)
  {
    |h1| == |h0| && forall x :: 0 <= x < |h0| ==> h1[x] == h0[x].(checksum := h1[x].checksum)
  }

  lemma OnlyChecksumsTransitive(h0: seq<CacheItem>, h1: seq<CacheItem>, h2: seq<CacheItem>)
    requires OnlyChecksums(h0, h1) && OnlyChecksums(h1, h2)
    ensures OnlyChecksums(h0, h2)
  {
    forall x | 0 <= x < |h0| ensures h2[x] == h0[x].(checksum := h2[x].checksum) {
      assert h1[x] == h0[x].(checksum := h1[x].checksum);
    }
  }

  /** The inner loops' step: `a.checksum` then `b.checksum` on shared
      records. Both values are what the records reported before the step;
      only the checksums of `a` and `b` may have been filled in. */
  function ChecksumPair(fs: Fs, s: Store, a: Ref, b: Ref): (res: (string, string, Store))
    requires Valid(s) && a < |s.heap| && b < |s.heap|
    ensures res.0 == Digest(fs, s.heap[a]) && res.1 == Digest(fs, s.heap[b])
    ensures Valid(res.2) && res.2.cache == s.cache
    ensures Evolves(fs, s.heap, res.2.heap) && OnlyChecksums(s.heap, res.2.heap)
    ensures forall x :: 0 <= x < |s.heap| && x != a && x != b ==> res.2.heap[x] == s.heap[x]
  {
    var (va, s1) := ChecksumAt(fs, s, a);
    var (vb, s2) := ChecksumAt(fs, s1, b);
    EvolvesTransitive(fs, s.heap, s1.heap, s2.heap);
    assert Refines(fs, s.heap[b], s1.heap[b]);
    OnlyChecksumsTransitive(s.heap, s1.heap, s2.heap);
    (va, vb, s2)
  }

  /** Every record whose path is not `path` keeps its stat fields: what a
      consumer of the record yielded for `path` may do to the store. */
  predicate StatKeptExcept(h0: seq<CacheItem>, h1: seq<CacheItem>, path: string)
  {
    && |h0| <= |h1|
    && forall x :: 0 <= x < |h0| && h0[x].abspath != path ==> h1[x].size == h0[x].size && h1[x].mtime == h0[x].mtime
  }
}

=== FILE: wrappers.dfy ===
/** Option and Result, the two failure-carrying datatypes the model uses for
    Python's `None` and for raised exceptions. */
module Wrappers {

  datatype Option<+T> = None | Some(value: T)

  datatype Result<+R, +E> = Success(value: R) | Failure(error: E)
}
